=== FILE: README.md ===
# Top-down forest game: entities, collision and interaction, in Dafny

This project models the game logic of `script.js`, a browser game with a top-down view.
The player walks a white square through a forest of oak trees and past a stone wall.
An axe follows the player and aims at the mouse.
An oak is selected, and drawn in lighter colours, when two things hold. The mouse cursor must overlap the tree's hover probe (its collider shifted right by half its width). The axe must also be drawn within 50 pixels of the collider's top-left corner on screen.
At start-up a forest is spawned. Each new oak is pushed onto both registries, `objects` and `trees`, and then scans each of them. The scan runs forward over each registry, re-reading its length. Every blocker it reaches splices one slot out of that registry; a blocker is a collidable entity whose collider overlaps the oak's. The first such hit removes the oak itself, so an oak that overlaps only the wall, which is in `objects` alone, leaves `objects` but stays in `trees`. A later hit in the same registry no longer finds the oak and removes the registry's head instead. That shifts every element down one place below the scan index, so the slot right after each head removal is skipped and a blocker there splices nothing.

The model covers:

- **Geometry** (`geometry.dfy`):
  - the box overlap test `checkCollision`;
  - the `Vector2` operations used for distances;
  - `clampPositionToCircle`, which keeps the axe's drawn point within 100 pixels of its aiming centre, the player's on-screen position less half the player's size.
- **Registry** (`registry.dfy`): the two entity registries `objects` and `trees` as sequences.
  - the identity search of `getObjectId` and `getTreeId`;
  - JavaScript's `splice(start, 1)`, including a start of `undefined`;
  - the forward scan of `deleteSelf`, which splices while it iterates.
- **Movement** (`movement.dfy`):
  - the speed rule (diagonal reduction, sprint);
  - the per-axis move-then-revert rule against the colliders of `objects`;
  - the eased camera scroll.
- **Entities** (`entities.dfy`):
  - `Collider`, `Entity` (walls and oak trees) and `World` (the registries and the scroll) as classes whose fields the methods update in place;
  - the constructors, which push onto the registries;
  - `getHit`, `checkOffScreen` and the two `update`s;
  - JavaScript's `undefined` and `NaN` health values.
- **Controllers** (`controllers.dfy`): the `player` and `tool` singletons as classes.
  - `verticalCollision` and `horizontalCollision` are loops, proved against the pure movement functions;
  - the tool's `move` is proved to draw the axe at the mouse point less half the tool's size (35, 40). When that point lies outside the circle of radius 100 around the aiming centre `(player.x − scrollX − 20, player.y − scrollY − 20)`, it is pulled onto the circle; the drawn point never lies outside that circle.
- **Frame** (`frame.dfy`):
  - `moveLoop` over the whole world, proved against a per-entity description of what one frame does;
  - `spawnTrees`, with the random positions as input. It is proved to build one oak per position, to leave the collidable entities of each registry pairwise apart, and to add nothing to either registry but those oaks, still healthless. For each single oak, both registries are proved equal to the splice-while-scanning result over the old registry with the oak pushed on.

Two modelling choices apply throughout:

- JavaScript numbers are exact reals.
- `Math.sqrt` is a parameter `sqrt`, and each member whose contract relies on it requires `IsSqrt(sqrt)`: `sqrt` returns the non-negative square root of every non-negative number. `Geometry.ClampPositionToCircle` itself only computes with `sqrt`; the lemmas about it require `IsSqrt(sqrt)`.

Two behaviours of the code differ from what one might expect, and the model follows the code:

- **Moving into an obstacle.** A move straight into a single obstacle does not end with zero net displacement on that axis. The code steps by delta and then steps back by twice delta, so the player ends delta short of where it started. `Movement.SingleObstacleOvershoot` proves this. Below the wall (500, 150, 100, 100) the player does not settle at the wall's lower edge. `Movement.WallScenario` shows it oscillating between y = 251 and y = 254.
- **Collidable entities.** The player's collision loops test every entity of `objects`. They do not consult `canCollide` in `verticalCollision` or `horizontalCollision`.

## Model

| member | source | states |
|---|---|---|
| Geometry.Overlaps | script.js:611-618 | checkCollision as the four strict exclusions; Geometry.OverlapsIsIntervalTest proves it is the closed-interval test, and the four rows after it give symmetry, edge contact, self-overlap and growth |
| Geometry.OverlapsIsIntervalTest | script.js:611-618 | checkCollision holds exactly when the two closed intervals meet on both axes |
| Geometry.OverlapsSymmetric | script.js:611-618 | the overlap test does not depend on the order of its arguments |
| Geometry.TouchingEdgesOverlap | script.js:611-618 | boxes that only share an edge or a corner count as colliding, because the four tests are strict |
| Geometry.SelfOverlap | script.js:611-618 | a box collides with itself exactly when its width and height are not negative |
| Geometry.OverlapsGrows | script.js:611-618 | whatever overlaps a box also overlaps every box that contains it |
| Geometry.Vector2.Add | script.js:54-56 | the componentwise sum; Geometry.AddSubtractInverse proves it commutative and undone by subtract |
| Geometry.Vector2.Subtract | script.js:58-60 | the componentwise difference; Geometry.AddSubtractInverse proves it undoes add, and Vector2.DistanceSqr is stated through it |
| Geometry.Vector2.Dot | script.js:66-68 | dot as written, with the y components added; Geometry.DotIsNotInnerProduct exhibits the difference from the inner product |
| Geometry.Vector2.Scale | script.js:62-64 | scaling by s multiplies the squared magnitude by s squared |
| Geometry.Vector2.MoveTowards | script.js:70-76 | t is clamped to at most 1: any t >= 1 returns the target, and t = 0 returns the start |
| Geometry.MoveTowardsRemaining | script.js:70-76 | for 0 <= t <= 1 the squared distance left to the target is (1 - t)² times the squared distance before |
| Geometry.Vector2.MagnitudeSqr | script.js:82-84 | the squared magnitude is never negative |
| Geometry.Vector2.DistanceSqr | script.js:90-94 | the squared distance is the squared magnitude of the difference vector |
| Geometry.AddSubtractInverse | script.js:54-60 | add and subtract undo each other, add is commutative, and the squared distance is symmetric |
| Geometry.DotIsNotInnerProduct | script.js:66-68 | dot as written gives 1 for (0,0)·(0,1), where the inner product is 0 |
| Geometry.InnerProductLaws | script.js:66-68 | the corrected dot is symmetric, gives the squared magnitude of a vector with itself, and is homogeneous and additive in its first argument |
| Geometry.InnerProductHomogeneous | script.js:66-68 | the corrected dot of a scaled vector is the scaled dot |
| Geometry.InnerProductAdditive | script.js:66-68 | (u + v)·v is u·v plus the squared magnitude of v |
| Geometry.SqrtBelow | script.js:601-605 | a square-root distance is below a limit exactly when the squared distance is below the squared limit |
| Geometry.ScaledOntoCircle | script.js:654-659 | in the scaled branch, the offset times radius/distance has length radius |
| Geometry.OffsetDistance | script.js:661-664 | the returned centre-plus-offset point lies at the offset's squared length from the centre |
| Geometry.ClampPositionToCircle | script.js:649-665 | the point itself when within radius of the centre, otherwise the offset scaled by radius/distance; Geometry.ClampBranches and Geometry.ClampWithinCircle state both branches, the bound and the unchanged-exactly-when-inside iff |
| Geometry.ClampBranches | script.js:649-665 | the scaled branch is taken only for points outside the circle and lands on it; the other branch keeps points inside |
| Geometry.ClampWithinCircle | script.js:649-665 | the clamped point is never farther than radius from the centre, and it equals the input point exactly when that point was within radius |
| Registry.FirstIndex | script.js:431-437 | none exactly when the entity is absent; otherwise an index holding it with no earlier occurrence |
| Registry.FirstIndexUnique | script.js:431-437 | that description determines the result: there is only one first index |
| Registry.IndexOf | script.js:431-437 | the loop returns the first index holding the entity, or none when it falls off the end |
| Registry.SpliceOne | script.js:446 | for a start inside the array, exactly the element there is removed and the others keep their order; a start past the end changes nothing; undefined starts at 0 |
| Registry.DeleteScan | script.js:439-449 | the scan only removes elements and never lengthens the registry |
| Registry.DeleteScanStep | script.js:439-449 | one iteration keeps the scan's overall result and keeps the registry inside the original |
| Registry.DeleteScanUnblocked | script.js:439-449 | with no blocker in the registry the scan changes nothing |
| Registry.DeleteScanSingleBlocker | script.js:439-449 | with exactly one blocker the scan removes exactly the slot the identity search finds |
| Registry.DeleteScanLastBlocker | script.js:439-449 | at the last blocker the scan splices once and then runs to the end unchanged |
| Registry.DeleteScanKeepsOut | script.js:439-449 | an entity absent from the registry stays absent |
| Registry.DeleteScanRemovesSelf | script.js:439-449 | an entity that occurs once and has a blocker is gone after the scan |
| Registry.DeleteScanSecondHitRemovesHead | script.js:440-447 | with two blockers, the second hit finds no index and splices out the head, which is neither self nor a blocker |
| Registry.HazardFirstHit | script.js:446 | the first hit splices out self, which the identity search finds in last place |
| Registry.HazardSecondHit | script.js:446 | the second hit, with self gone, removes index 0 |
| Registry.DeleteScanSkipsAfterHeadRemoval | script.js:440-447 | with three blockers behind an unrelated head, the third blocker is skipped: the head removal shifts it below the scan index, so it splices nothing |
| Registry.SkipFirstHit | script.js:446 | the first of those hits splices out self, which the identity search finds in last place |
| Registry.SkipSecondHit | script.js:440-447 | the second hit removes the head, and the scan then runs past the shortened end without testing the third blocker |
| Movement.VerticalVelocity | script.js:254 | the vertical step (down − up)·speed, by cases on the two flags; Movement.VelocityIsProduct proves it equals the product form |
| Movement.HorizontalVelocity | script.js:264 | the horizontal step (right − left)·speed, by cases; Movement.VelocityIsProduct covers it too |
| Movement.EffectiveSpeed | script.js:229-240 | speed divided by 1.25 on two axes, then times the multiplier when sprinting; Movement.EffectiveSpeedCases gives the closed form and Movement.DiagonalStepLength the diagonal length |
| Movement.VelocityIsProduct | script.js:254 | the per-axis step written by cases equals (plus - minus) * speed with 0/1 flags |
| Movement.EffectiveSpeedCases | script.js:230-240 | speed, times 0.8 on two axes, times the multiplier when sprinting; 3, 2.4, 4.5 or 3.6 for the player's constants |
| Movement.DiagonalStepLength | script.js:232-236 | a diagonal step is 1.28 times as long, squared, as a straight step: dividing by 1.25 does not normalise |
| Movement.Shift | script.js:254 | a shift moves only the chosen coordinate, by exactly d, and keeps the size |
| Movement.Settle | script.js:256-260 | the revert scan never changes the size or the other axis |
| Movement.Reverts | script.js:256-260 | at most one revert per collider |
| Movement.SettleByPushback | script.js:256-260 | the scan moves the coordinate back by exactly the total push-back |
| Movement.TimesIsProduct | script.js:258 | n reverts of m add up to m times n |
| Movement.PushbackCounts | script.js:256-260 | the total push-back is one step of 2·delta per overlapping collider |
| Movement.SettleByReverts | script.js:256-260 | the coordinate ends 2·delta back for every overlap found during the scan |
| Movement.SettleClear | script.js:256-260 | a box that overlaps no collider is left where it is |
| Movement.SettleStill | script.js:253-260 | with no key held on an axis nothing moves, however many colliders overlap |
| Movement.AxisMove | script.js:253-260 | one axis of the collision step: shift by delta, then the revert scan; Movement.AxisMoveFacts, Movement.SingleObstacleOvershoot and Movement.WallScenario state what it does |
| Movement.AxisMoveFacts | script.js:253-261 | the coordinate ends at start + delta less 2·delta per overlap; it stays put for delta 0 and moves the full delta when nothing is in the way; the other axis and the size are kept |
| Movement.SingleObstacleOvershoot | script.js:253-261 | moving into a single obstacle ends delta short of the start, not back at the start |
| Movement.WallScenario | script.js:253-261 | below the wall (500, 150, 100, 100) and moving up at speed 3, the player goes from y 251 to 254 and back, oscillating |
| Movement.VerticalStep | script.js:253-260 | AxisMove on the vertical axis at VerticalVelocity; Controllers.Player.VerticalCollision proves the loop equal to it |
| Movement.HorizontalStep | script.js:263-270 | AxisMove on the horizontal axis at HorizontalVelocity; Controllers.Player.HorizontalCollision proves the loop equal to it |
| Movement.CollisionStep | script.js:248-251 | the vertical step, then the horizontal step; Movement.CollisionStepFree and Controllers.Player.Collision state it |
| Movement.CollisionStepFree | script.js:248-271 | with nothing in the way, one frame moves the player by the full step on both axes |
| Movement.ScrollX | script.js:244 | scrollX plus a twentieth of the gap to player.x, less a fortieth of the viewport width; Movement.ScrollEases proves the 19/20 contraction |
| Movement.ScrollY | script.js:245 | scrollY plus a twentieth of the gap to player.y, less a forty-second of the viewport height; Movement.ScrollEases covers it too |
| Movement.ScrollEases | script.js:244-245 | each frame the scroll keeps 19/20 of its gap to a fixed point offset from the player |
| Entities.Minus | script.js:457 | `health -= damage`: a number drops by the damage, and undefined or NaN gives NaN; Entities.HitsSubtract states its iteration |
| Entities.Hits | script.js:457 | n such hits in a row; Entities.HitsSubtract gives the closed form, and Entities.TenHitsFromHundred and Entities.FewerHitsLeaveHealth the default-health cases |
| Entities.HitsSubtract | script.js:457 | n hits take exactly n·damage off a numeric health and turn undefined into NaN |
| Entities.TenHitsFromHundred | script.js:457 | from the default 100, ten hits of the tool's damage 10 leave exactly 0 |
| Entities.FewerHitsLeaveHealth | script.js:457 | fewer than ten such hits leave a positive health |
| Entities.OakColliderBox | script.js:544-549 | the oak's collider is a quarter of its width and half of its height, inside its bounds |
| Entities.HoverProbe | script.js:514-519 | the collider shifted right by half its width, in screen coordinates; Entities.Entity.UpdateTree states hover through it |
| Entities.MouseBox | script.js:521 | the mouse as a 25 by 25 box at the cursor; Entities.Entity.UpdateTree states hover through it |
| Entities.SelectGapSqr | script.js:525-528 | the squared distance from the collider's on-screen corner to the tool's drawn point; Entities.Entity.UpdateTree states selected through it, and Geometry.SqrtBelow justifies the squared comparison |
| Entities.OutsideViewport | script.js:480-485 | the four strict off-screen tests; Entities.Entity.CheckOffScreen states its effect through it |
| Entities.Entity.Blocks | script.js:441-445 | the deleteSelf guard: an overlapping collider, canCollide, and not the entity itself; Entities.Entity.DeleteSelf and Entities.DedupKeepsApart state the scan through it |
| Entities.Entity.Blockers | script.js:441-445 | the entities of a registry for which that guard holds; Entities.Entity.DeleteSelf, Frame.Dedup and Frame.SpawnOak state the registries through it |
| Entities.Collider.constructor | script.js:402-407 | the new collider has the given box |
| Entities.Collider.Update | script.js:409-412 | update takes the target's position and keeps the size |
| Entities.Entity.Wall | script.js:374-383 | a collidable, indestructible wall whose fresh collider is its own bounds, appended to objects |
| Entities.Entity.Oak | script.js:538-552 | a collidable, harvestable oak with the given health and its trunk collider, appended to objects and to trees |
| Entities.Entity.GetObjectId | script.js:431-437 | the first index of this entity in objects, or none |
| Entities.Entity.GetTreeId | script.js:491-497 | the first index of this entity in trees, or none |
| Entities.Entity.DeleteSelf | script.js:439-449 | objects end as the splice-while-scanning result over the old registry and its blockers, and only lose elements |
| Entities.Entity.DeleteSelfStep | script.js:441-447 | one pass of the loop body keeps that result and does not lengthen objects |
| Entities.Entity.DeleteSelfTree | script.js:499-510 | the same for trees, with getTreeId |
| Entities.Entity.DeleteSelfTreeStep | script.js:501-508 | one pass of deleteSelfTree's loop body keeps that result and does not lengthen trees |
| Entities.Entity.GetHit | script.js:451-460 | health drops by the damage exactly when the collider overlaps the tool and the entity is harvestable and destroyable; otherwise it is unchanged |
| Entities.Entity.CheckOffScreen | script.js:479-489 | outside the viewport the tree stops colliding and is marked off screen; inside it nothing changes; neither flag is ever set back |
| Entities.Entity.UpdateTree | script.js:512-529 | hover is the probe-versus-mouse overlap; selected holds exactly when hovering and the tool is drawn within 50 of the collider corner |
| Entities.Entity.Update | script.js:385-387 | a wall (`Wall.update`, cited) moves its collider onto itself and keeps its flags; a tree keeps its collider and recomputes hover and selected, as `Tree.update` at script.js:512-529 does, through Entities.Entity.UpdateTree |
| Entities.World.constructor | script.js:18-27 | both registries are empty and the scroll is at the origin |
| Entities.ColliderBoxes | script.js:256-257 | one collider box per entity of the registry, in order |
| Entities.DedupKeepsApart | script.js:636-637 | a new oak's deduplication leaves a registry that was apart before the push still apart |
| Entities.UnblockedApart | script.js:439-449 | an oak that nothing blocks can stay without breaking apartness |
| Entities.ApartWithin | script.js:636-637 | entities drawn from an apart registry are apart |
| Controllers.Player.constructor | script.js:148-156 | the player starts at (500, 350), 40 by 40, with speed 3 and sprint multiplier 1.5 |
| Controllers.Player.VerticalCollision | script.js:253-261 | the loop ends where the vertical move-then-revert rule says, for the colliders of objects |
| Controllers.Player.HorizontalCollision | script.js:263-271 | the same on the horizontal axis |
| Controllers.Player.Collision | script.js:248-251 | vertical then horizontal: the position is the collision step of the old position |
| Controllers.Player.Move | script.js:229-246 | collision at the effective speed, then both scroll axes eased towards the new position |
| Controllers.AimCentre | script.js:312-313 | the player's on-screen position less half its size, the centre of the aiming circle; Controllers.Tool.Move states the drawn point through it |
| Controllers.Tool.constructor | script.js:274-288 | the tool starts at the player with size 70 by 80, radius 100, range 75 and damage 10 |
| Controllers.Tool.Move | script.js:290-320 | the tool sits on the player; its drawn position is clampPositionToCircle of the mouse point less half the tool's size, around the aiming centre with radius 100; so it lies within 100 of the centre, and it is the mouse point exactly when that point was within 100 |
| Frame.HitHealth | script.js:670-672 | undefined health is skipped, NaN stays NaN, and without a qualifying overlap nothing changes |
| Frame.HitHealthFacts | script.js:670-672 | a numeric health the tool overlaps drops by exactly the damage; an oak built without health is never damaged, over any number of frames |
| Frame.UndefinedStays | script.js:670-672 | undefined health survives any number of frames of hits |
| Frame.UpdateObjects | script.js:668-673 | every entity of objects is updated once and hit under the guard, with the scroll and tool of this frame; canCollide and offScreen stay as they were |
| Frame.UpdateEntities | script.js:668-674 | the same after the wall's second update, with canCollide and offScreen kept; the wall's collider ends at the wall, and a wall not in objects keeps its health, flags, hover and selected |
| Frame.MoveControllers | script.js:675-676 | the player takes the collision step, the scroll eases, and the tool follows the player and is drawn at the clamped mouse point, within 100 of the aiming centre and unclamped exactly when the mouse point is within 100 |
| Frame.MoveLoop | script.js:667-677 | the whole frame: the registries are untouched, every entity's new state is its per-entity update (canCollide and offScreen kept), a wall not in objects changes only its collider, the player takes the collision step, the scroll eases, and the tool is drawn at the clamped mouse point around the moved player's aiming centre |
| Frame.Dedup | script.js:636-637 | after deleteSelf and deleteSelfTree each registry is exactly the splice-while-scanning result over itself and the oak's blockers in it; both only lose elements and both end apart |
| Frame.SpawnOak | script.js:630-637 | one healthless oak is built at the given position and size; each registry becomes exactly the splice-while-scanning result over itself with the oak pushed on, against the oak's blockers there; the registries stay apart, and each gains at most that oak |
| Frame.SpawnTrees | script.js:626-639 | one new oak per position, in order, at that position with the given size; afterwards collidable entities of each registry are pairwise apart, every entity of objects and of trees is an old one or one of those oaks, still healthless, and each registry grows by at most one per position |

## Left out

- Drawing, the canvas and the DOM are not modelled. This covers every `draw` method, `drawLoop`, `roundRect`, the player's eyes and the tool's rotation. None of them changes the game state. The wall's colour, which only `Wall.draw` reads, is left out with them.
- Keyboard and mouse listeners are not modelled. Their effect is the `Inputs` value and the mouse coordinates, which are parameters.
- `mainLoop` and `requestAnimationFrame` are not modelled; one call of `Frame.MoveLoop` is one frame.
- The `frame` counter is not modelled.
- `alert` in `getHit` and `console.log` are not modelled, because they are output only.
- `getRandomInt` and `Math.random` are not modelled. `spawnTrees` takes the positions as a sequence of integers instead, and the oak's size is passed in.
- The `canvas.clientWidth` and `canvas.clientHeight` values are not modelled. They are parameters.
- `normalize`, `angle`, `rotate`, `magnitude`, `distance`, `toPrecision`, `toString`, `set` and `clone` of `Vector2` are not modelled, because no modelled code calls them.
- The same holds for `getAngle` and `findDirectionOfMouse`.
- `magnitude` and `distance` would need the square root, which the model only has as a parameter.
- `Item` and `Tree` as constructors are not modelled. The script never calls them, and they would build entities without a collider. Their prototype methods are modelled on `Entity`.
- Fields that nothing reads are not modelled. These are the player's `startW` and `startH` and the tool's `dx`, `dy`, `image` and `postion`. The locals `inputX` and `inputY` of `tool.move`, which are computed and never read, are not modelled either.
- `Entities.Entity.CheckOffScreen`: the script never calls it, so no frame member calls it either.
- The oak built at load time (`new OakTree(100, 100, 125, 150)`) and the wall and forest built at start-up are not modelled as a fixed script. The constructors and `Frame.SpawnTrees` cover them for any arguments.
- IEEE 754 rounding, infinities and the null/undefined arithmetic are not modelled beyond health. Numbers are exact reals, and health alone carries `undefined` and `NaN`.
- Movement.VerticalVelocity: this and its horizontal twin write `(down - up) * speed` by cases on the two flags. `Movement.VelocityIsProduct` proves the two forms equal.
- Movement.AxisMoveFacts: the push-back is stated as `Times(k, 2 * delta)`, k repeated additions, not as the product `2 * delta * k`. `Movement.TimesIsProduct` proves the two equal.
- Frame.MoveLoop: this requires that no two slots of `objects` share a collider. It also requires that no other entity shares the wall's collider. The script builds a fresh collider per entity, so both hold, but the model does not derive them from the constructors.
- Frame.SpawnTrees: the contract names the oaks built, one per position, and confines both registries to the old entities and those oaks. It does not state which oaks survive as the composition of the per-oak scans. `Frame.SpawnOak` states that exact scan for one pass of the loop.
- Entities.Entity.DeleteSelf: the contract describes the registry through `Registry.DeleteScan` and not as "self removed". Removing the head as well is behaviour the script really has. `Registry.DeleteScanSecondHitRemovesHead` exhibits it, and `Registry.DeleteScanSingleBlocker` and `Registry.DeleteScanRemovesSelf` state the cases where only self goes.

## Findings

| source | as written | input that shows it | evidently intended | confidence | as-written member | corrected member |
|---|---|---|---|---|---|---|
| script.js:66-68 | `dot` returns `x * v.x + y + v.y`, adding the y components | (0, 0)·(0, 1) gives 1 | the inner product `x * v.x + y * v.y`, which gives 0 | not executed | Geometry.DotIsNotInnerProduct | Geometry.InnerProductLaws |

=== FILE: controllers.dfy ===
/** The two singletons the frame moves: the player, who walks through the
    colliders of `objects` with the move-then-revert rule, and the tool,
    which follows the player and aims at the mouse within a circle. */
module Controllers {
  import opened Geometry
  import opened Movement
  import opened Entities

  class Player {
    var x: real
    var y: real
    const w: real
    const h: real
    const speed: real
    const sprintMultiplier: real

    /** The player's initial literal: at (500, 350), 40 x 40, speed 3,
        sprint multiplier 1.5. */
    constructor()
      ensures Bounds() == Box(500.0, 350.0, 40.0, 40.0)
      ensures speed == 3.0 && sprintMultiplier == 1.5
    {
      x := 500.0;
      y := 350.0;
      w := 40.0;
      h := 40.0;
      speed := 3.0;
      sprintMultiplier := 1.5;
    }

    function Bounds(): Box
      reads this`x, this`y
    {
      Box(x, y, w, h)
    }

    /** verticalCollision: step y by (down - up) * speed, then for every
        entity of `objects` in order whose collider the player now overlaps,
        step back by twice that amount. canCollide is not consulted. */
    method VerticalCollision(objects: seq<Entity>, inputs: Inputs, speed: real)
      modifies this`y
      ensures Bounds() == VerticalStep(old(Bounds()), ColliderBoxes(objects), inputs, speed)
    {
      ghost var boxes := ColliderBoxes(objects);
      var delta := VerticalVelocity(inputs, speed);
      ghost var target := AxisMove(Bounds(), boxes, Vertical, delta);
      y := y + delta;
      var i := 0;
      while i < |objects|
        invariant 0 <= i <= |objects|
        invariant Settle(Bounds(), boxes[i..], Vertical, delta) == target
      {
        assert boxes[i..][1..] == boxes[i + 1..];
        assert objects[i].collider.Bounds() == boxes[i];
        if Overlaps(Bounds(), objects[i].collider.Bounds()) {
          y := y - delta * 2.0;
        }
        i := i + 1;
      }
      assert boxes[i..] == [];
    }

    /** horizontalCollision: the same rule on x with (right - left) * speed. */
    method HorizontalCollision(objects: seq<Entity>, inputs: Inputs, speed: real)
      modifies this`x
      ensures Bounds() == HorizontalStep(old(Bounds()), ColliderBoxes(objects), inputs, speed)
    {
      ghost var boxes := ColliderBoxes(objects);
      var delta := HorizontalVelocity(inputs, speed);
      ghost var target := AxisMove(Bounds(), boxes, Horizontal, delta);
      x := x + delta;
      var i := 0;
      while i < |objects|
        invariant 0 <= i <= |objects|
        invariant Settle(Bounds(), boxes[i..], Horizontal, delta) == target
      {
        assert boxes[i..][1..] == boxes[i + 1..];
        assert objects[i].collider.Bounds() == boxes[i];
        if Overlaps(Bounds(), objects[i].collider.Bounds()) {
          x := x - delta * 2.0;
        }
        i := i + 1;
      }
      assert boxes[i..] == [];
    }

    /** collision: vertical first, then horizontal. */
    method Collision(objects: seq<Entity>, inputs: Inputs, speed: real)
      modifies this`x, this`y
      ensures Bounds() == CollisionStep(old(Bounds()), ColliderBoxes(objects), inputs, speed)
    {
      ghost var boxes := ColliderBoxes(objects);
      VerticalCollision(objects, inputs, speed);
      ghost var afterVertical := Bounds();
      HorizontalCollision(objects, inputs, speed);
      assert ColliderBoxes(objects) == boxes;
    }

    /** move: pick the speed, resolve collisions against `objects`, then
        ease the camera towards the new position. */
    method Move(world: World, inputs: Inputs, viewportWidth: real, viewportHeight: real)
      modifies this`x, this`y, world`scrollX, world`scrollY
      ensures Bounds() == CollisionStep(old(Bounds()), ColliderBoxes(world.objects), inputs,
                                        EffectiveSpeed(speed, sprintMultiplier, inputs))
      ensures world.scrollX == ScrollX(old(world.scrollX), x, viewportWidth)
      ensures world.scrollY == ScrollY(old(world.scrollY), y, viewportHeight)
    {
      var s := EffectiveSpeed(speed, sprintMultiplier, inputs);
      Collision(world.objects, inputs, s);
      world.scrollX := ScrollX(world.scrollX, x, viewportWidth);
      world.scrollY := ScrollY(world.scrollY, y, viewportHeight);
    }
  }

  /** The centre of the tool's aiming circle on screen: the player's
      position less the scroll, moved up and left by half the player's size. */
  function AimCentre(px: real, py: real, pw: real, ph: real, scrollX: real, scrollY: real): Vector2
  {
    Vector2(px - scrollX - pw / 2.0, py - scrollY - ph / 2.0)
  }

  class Tool {
    var x: real
    var y: real
    const w: real
    const h: real
    var drawX: real
    var drawY: real
    const radius: real
    const range: real
    const damage: real
    const target: Player

    /** The tool's initial literal: 70 x 80, radius 100, range 75, damage
        10, at the target's position and drawn there. */
    constructor(target: Player)
      ensures this.target == target
      ensures x == target.x && y == target.y && drawX == target.x && drawY == target.y
      ensures w == 70.0 && h == 80.0 && radius == 100.0 && range == 75.0 && damage == 10.0
    {
      this.target := target;
      x := target.x;
      y := target.y;
      w := 70.0;
      h := 80.0;
      drawX := target.x;
      drawY := target.y;
      radius := 100.0;
      range := 75.0;
      damage := 10.0;
    }

    /** The box getHit tests: the tool's position with its size. */
    function Bounds(): Box
      reads this`x, this`y
    {
      Box(x, y, w, h)
    }

    /** move: pin the tool to the target, and draw it at the mouse less half
        its size, pulled onto the aiming circle of radius 100 when it lies
        farther out. */
    method Move(scrollX: real, scrollY: real, mouseX: real, mouseY: real, sqrt: real -> real)
      requires IsSqrt(sqrt)
      modifies this`x, this`y, this`drawX, this`drawY
      ensures x == target.x && y == target.y
      ensures var centre := AimCentre(target.x, target.y, target.w, target.h, scrollX, scrollY);
        Vector2(drawX, drawY) == ClampPositionToCircle(mouseX - w / 2.0, mouseY - h / 2.0, centre.x, centre.y, 100.0, sqrt)
      ensures Vector2(drawX, drawY).DistanceSqr(AimCentre(target.x, target.y, target.w, target.h, scrollX, scrollY))
              <= 100.0 * 100.0
      ensures Vector2(drawX, drawY) == Vector2(mouseX - w / 2.0, mouseY - h / 2.0)
          <==> Vector2(mouseX - w / 2.0, mouseY - h / 2.0).DistanceSqr(AimCentre(target.x, target.y, target.w, target.h, scrollX, scrollY))
               <= 100.0 * 100.0
    {
      x := target.x;
      y := target.y;
      drawX := mouseX;
      drawY := mouseY;
      var centre := AimCentre(target.x, target.y, target.w, target.h, scrollX, scrollY);
      var position := ClampPositionToCircle(drawX - w / 2.0, drawY - h / 2.0, centre.x, centre.y, 100.0, sqrt);
      ClampWithinCircle(drawX - w / 2.0, drawY - h / 2.0, centre.x, centre.y, 100.0, sqrt);
      drawX := position.x;
      drawY := position.y;
    }
  }
}

=== FILE: entities.dfy ===
/** The game's entities: the collider box, the wall and the oak tree with
    their flags and health, and the world that holds the two registries
    (`objects` and `trees`) and the camera scroll. */
module Entities {
  import opened Geometry
  import opened Registry

  datatype Kind = WallKind | OakKind

  /** A health value as JavaScript holds it: an oak built without a health
      argument holds `undefined`, and arithmetic on `undefined` gives NaN. */
  datatype JsNumber = Undefined | NaN | Num(value: real)

  /** `health -= d` */
  function Minus(a: JsNumber, d: real): JsNumber
  {
    match a
    case Num(v) => Num(v - d)
    case _ => NaN
  }

  /** n hits of damage d in a row. */
  function Hits(a: JsNumber, d: real, n: nat): JsNumber
  {
    if n == 0 then a else Minus(Hits(a, d, n - 1), d)
  }

  /** n hits take exactly n * d off a number, and turn anything else into NaN. */
  lemma {:induction false} HitsSubtract(a: JsNumber, d: real, n: nat)
    ensures a.Num? ==> Hits(a, d, n) == Num(a.value - n as real * d)
    ensures !a.Num? && n > 0 ==> Hits(a, d, n) == NaN
  {
    if n > 0 {
      HitsSubtract(a, d, n - 1);
    }
  }

  /** From 100, ten hits of the tool's damage 10 leave exactly 0. */
  lemma TenHitsFromHundred()
    ensures Hits(Num(100.0), 10.0, 10) == Num(0.0)
  {
    HitsSubtract(Num(100.0), 10.0, 10);
  }

  /** Fewer than ten such hits leave a positive health. */
  lemma FewerHitsLeaveHealth(n: nat)
    requires n < 10
    ensures Hits(Num(100.0), 10.0, n).Num? && Hits(Num(100.0), 10.0, n).value > 0.0
  {
    HitsSubtract(Num(100.0), 10.0, n);
  }

  /** The collision box of an oak: a quarter of its width, half of its
      height, starting an eighth of the height below its top. */
  function OakColliderBox(x: real, y: real, w: real, h: real): (r: Box)
    ensures w >= 0.0 && h >= 0.0 ==> Inside(r, Box(x, y, w, h))
    ensures r.w == w / 4.0 && r.h == h / 2.0
  {
    Box(x, h / 8.0 + y, w / 4.0, h / 2.0)
  }

  /** The box Tree.update tests against the mouse: the collider shifted
      right by half its width, in screen coordinates. */
  function HoverProbe(c: Box, scrollX: real, scrollY: real): Box
  {
    Box(c.w / 2.0 + c.x - scrollX, c.y - scrollY, c.w, c.h)
  }

  /** The mouse cursor as a 25 x 25 box. */
  function MouseBox(mouseX: real, mouseY: real): Box
  {
    Box(mouseX, mouseY, 25.0, 25.0)
  }

  /** The squared distance Tree.update compares against 50: from the
      collider's corner on screen to the tool's drawn position. */
  function SelectGapSqr(c: Box, scrollX: real, scrollY: real, drawX: real, drawY: real): real
  {
    Vector2(c.x - scrollX, c.y - scrollY).DistanceSqr(Vector2(drawX, drawY))
  }

  /** A tree lies outside the viewport when its position on screen is left
      of or above the origin, or beyond the viewport's width or height. */
  predicate OutsideViewport(x: real, y: real, scrollX: real, scrollY: real, width: real, height: real)
  {
    x - scrollX < 0.0 || x - scrollX > width || y - scrollY < 0.0 || y - scrollY > height
  }

  /** A box with a position that `update` overwrites and a size it keeps. */
  class Collider {
    var x: real
    var y: real
    const w: real
    const h: real

    constructor(x: real, y: real, w: real, h: real)
      ensures Bounds() == Box(x, y, w, h)
    {
      this.x := x;
      this.y := y;
      this.w := w;
      this.h := h;
    }

    function Bounds(): Box
      reads this
    {
      Box(x, y, w, h)
    }

    /** Collider.update: take the target's position, keep the size. */
    method Update(targetX: real, targetY: real)
      modifies this`x, this`y
      ensures Bounds() == Box(targetX, targetY, w, h)
    {
      x := targetX;
      y := targetY;
    }
  }

  /** A wall or an oak tree. Position and size are never written after
      construction; the flags a wall lacks read as false. */
  class Entity {
    const kind: Kind
    const x: real
    const y: real
    const w: real
    const h: real
    const collider: Collider
    var canCollide: bool
    const canDestroy: bool
    const canBeHarvested: bool
    var offScreen: bool
    var hover: bool
    var selected: bool
    var health: JsNumber

    /** new Wall(x, y, w, h, c): a collidable box whose collider is its own
        bounds, appended to `objects`. */
    constructor Wall(world: World, x: real, y: real, w: real, h: real)
      modifies world`objects
      ensures kind == WallKind && this.x == x && this.y == y && this.w == w && this.h == h
      ensures fresh(collider) && collider.Bounds() == Box(x, y, w, h)
      ensures canCollide && !canDestroy && !canBeHarvested
      ensures !offScreen && !hover && !selected && health == Undefined
      ensures world.objects == old(world.objects) + [this]
    {
      kind := WallKind;
      this.x := x;
      this.y := y;
      this.w := w;
      this.h := h;
      collider := new Collider(x, y, w, h);
      canCollide := true;
      canDestroy := false;
      canBeHarvested := false;
      offScreen := false;
      hover := false;
      selected := false;
      health := Undefined;
      new;
      world.objects := world.objects + [this];
    }

    /** new OakTree(x, y, w, h, health): a harvestable tree whose collider is
        the trunk box inside its bounds, appended to `objects` and `trees`. */
    constructor Oak(world: World, x: real, y: real, w: real, h: real, health: JsNumber)
      modifies world`objects, world`trees
      ensures kind == OakKind && this.x == x && this.y == y && this.w == w && this.h == h
      ensures fresh(collider) && collider.Bounds() == OakColliderBox(x, y, w, h)
      ensures canCollide && canDestroy && canBeHarvested
      ensures !offScreen && !hover && !selected && this.health == health
      ensures world.objects == old(world.objects) + [this]
      ensures world.trees == old(world.trees) + [this]
    {
      kind := OakKind;
      this.x := x;
      this.y := y;
      this.w := w;
      this.h := h;
      this.health := health;
      var c := OakColliderBox(x, y, w, h);
      collider := new Collider(c.x, c.y, c.w, c.h);
      canCollide := true;
      canDestroy := true;
      canBeHarvested := true;
      offScreen := false;
      hover := false;
      selected := false;
      new;
      world.objects := world.objects + [this];
      world.trees := world.trees + [this];
    }

    /** getObjectId: the first index of this entity in `objects`, or none. */
    method GetObjectId(world: World) returns (r: Option<nat>)
      ensures r == FirstIndex(world.objects, this)
    {
      r := IndexOf(world.objects, this);
    }

    /** getTreeId: the first index of this entity in `trees`, or none. */
    method GetTreeId(world: World) returns (r: Option<nat>)
      ensures r == FirstIndex(world.trees, this)
    {
      r := IndexOf(world.trees, this);
    }

    /** Whether another entity is a reason for this one to delete itself:
        it can collide and its collider overlaps this one's. */
    predicate Blocks(e: Entity)
      reads this, collider, e, e.collider
    {
      Overlaps(collider.Bounds(), e.collider.Bounds()) && e.canCollide && e != this
    }

    /** The entities of a registry that block this one. */
    ghost function Blockers(es: seq<Entity>): set<Entity>
      reads this, collider, es, set e | e in es :: e.collider
    {
      set e | e in es && Blocks(e)
    }

    /** deleteSelf: scan `objects` forward; at every blocker, splice out the
        slot getObjectId finds (the first slot once this entity is gone). */
    method DeleteSelf(world: World)
      modifies world`objects
      ensures world.objects == DeleteScan(old(world.objects), this, Blockers(old(world.objects)), 0)
      ensures multiset(world.objects) <= multiset(old(world.objects))
    {
      ghost var s0 := world.objects;
      ghost var b := Blockers(s0);
      var i := 0;
      while i < |world.objects|
        invariant multiset(world.objects) <= multiset(s0)
        invariant DeleteScan(world.objects, this, b, i) == DeleteScan(s0, this, b, 0)
        decreases |world.objects| - i
      {
        var o := world.objects[i];
        assert o in multiset(s0);
        assert o in b <==> old(Blocks(o));
        DeleteSelfStep(world, i, s0, b);
        i := i + 1;
      }
    }

    /** One pass of DeleteSelf's loop body at index i: when the entity there
        blocks this one, splice out the slot getObjectId finds. */
    method DeleteSelfStep(world: World, i: nat, ghost s0: seq<Entity>, ghost b: set<Entity>)
      requires i < |world.objects| && multiset(world.objects) <= multiset(s0)
      requires DeleteScan(world.objects, this, b, i) == DeleteScan(s0, this, b, 0)
      requires world.objects[i] in b <==> Blocks(world.objects[i])
      modifies world`objects
      ensures multiset(world.objects) <= multiset(s0) && |world.objects| <= old(|world.objects|)
      ensures DeleteScan(world.objects, this, b, i + 1) == DeleteScan(s0, this, b, 0)
    {
      var o := world.objects[i];
      DeleteScanStep(world.objects, s0, this, b, i);
      if Blocks(o) {
        var id := GetObjectId(world);
        world.objects := SpliceOne(world.objects, id);
      }
    }

    /** deleteSelfTree: the same scan over `trees`, splicing the slot
        getTreeId finds. */
    method DeleteSelfTree(world: World)
      modifies world`trees
      ensures world.trees == DeleteScan(old(world.trees), this, Blockers(old(world.trees)), 0)
      ensures multiset(world.trees) <= multiset(old(world.trees))
    {
      ghost var s0 := world.trees;
      ghost var b := Blockers(s0);
      var i := 0;
      while i < |world.trees|
        invariant multiset(world.trees) <= multiset(s0)
        invariant DeleteScan(world.trees, this, b, i) == DeleteScan(s0, this, b, 0)
        decreases |world.trees| - i
      {
        var o := world.trees[i];
        assert o in multiset(s0);
        assert o in b <==> old(Blocks(o));
        DeleteSelfTreeStep(world, i, s0, b);
        i := i + 1;
      }
    }

    /** One pass of DeleteSelfTree's loop body at index i: when the entity there
        blocks this one, splice out the slot getTreeId finds. */
    method DeleteSelfTreeStep(world: World, i: nat, ghost s0: seq<Entity>, ghost b: set<Entity>)
      requires i < |world.trees| && multiset(world.trees) <= multiset(s0)
      requires DeleteScan(world.trees, this, b, i) == DeleteScan(s0, this, b, 0)
      requires world.trees[i] in b <==> Blocks(world.trees[i])
      modifies world`trees
      ensures multiset(world.trees) <= multiset(s0) && |world.trees| <= old(|world.trees|)
      ensures DeleteScan(world.trees, this, b, i + 1) == DeleteScan(s0, this, b, 0)
    {
      var o := world.trees[i];
      DeleteScanStep(world.trees, s0, this, b, i);
      if Blocks(o) {
        var id := GetTreeId(world);
        world.trees := SpliceOne(world.trees, id);
      }
    }

    /** getHit: take the tool's damage when the collider overlaps the
        tool and the entity is harvestable and destroyable. */
    method GetHit(tool: Box, damage: real)
      modifies this`health
      ensures Overlaps(collider.Bounds(), tool) && canBeHarvested && canDestroy
              ==> health == Minus(old(health), damage)
      ensures !(Overlaps(collider.Bounds(), tool) && canBeHarvested && canDestroy)
              ==> health == old(health)
    {
      if Overlaps(collider.Bounds(), tool) && canBeHarvested && canDestroy {
        health := Minus(health, damage);
      }
    }

    /** Tree.checkOffScreen: once outside the viewport the tree stops
        colliding and is marked off screen; nothing sets either flag back. */
    method CheckOffScreen(scrollX: real, scrollY: real, width: real, height: real)
      requires kind == OakKind
      modifies this`canCollide, this`offScreen
      ensures OutsideViewport(x, y, scrollX, scrollY, width, height) ==> !canCollide && offScreen
      ensures !OutsideViewport(x, y, scrollX, scrollY, width, height)
              ==> canCollide == old(canCollide) && offScreen == old(offScreen)
      ensures canCollide ==> old(canCollide)
      ensures old(offScreen) ==> offScreen
    {
      if x - scrollX < 0.0 || x - scrollX > width || y - scrollY < 0.0 || y - scrollY > height {
        canCollide := false;
        offScreen := true;
      }
    }

    /** Tree.update: hover when the probe box overlaps the mouse box;
        selected when hovering and the tool is drawn within 50 of the
        collider's corner on screen. */
    method UpdateTree(scrollX: real, scrollY: real, mouseX: real, mouseY: real,
                      drawX: real, drawY: real, sqrt: real -> real)
      requires kind == OakKind && IsSqrt(sqrt)
      modifies this`hover, this`selected
      ensures hover == Overlaps(HoverProbe(collider.Bounds(), scrollX, scrollY), MouseBox(mouseX, mouseY))
      ensures selected <==> hover && SelectGapSqr(collider.Bounds(), scrollX, scrollY, drawX, drawY) < 2500.0
      ensures selected ==> hover
    {
      hover := Overlaps(HoverProbe(collider.Bounds(), scrollX, scrollY), MouseBox(mouseX, mouseY));
      var gap := Vector2(collider.x - scrollX, collider.y - scrollY).DistanceSqr(Vector2(drawX, drawY));
      SqrtBelow(sqrt, gap, 50.0);
      selected := hover && sqrt(gap) < 50.0;
    }

    /** update: a wall moves its collider to its own position; a tree
        recomputes hover and selected. */
    method Update(scrollX: real, scrollY: real, mouseX: real, mouseY: real,
                  drawX: real, drawY: real, sqrt: real -> real)
      requires IsSqrt(sqrt)
      modifies collider`x, collider`y, this`hover, this`selected
      ensures kind == WallKind ==> collider.Bounds() == Box(x, y, collider.w, collider.h)
                                   && hover == old(hover) && selected == old(selected)
      ensures kind == OakKind ==> unchanged(collider)
      ensures kind == OakKind ==>
        hover == Overlaps(HoverProbe(collider.Bounds(), scrollX, scrollY), MouseBox(mouseX, mouseY)) &&
        (selected <==> hover && SelectGapSqr(collider.Bounds(), scrollX, scrollY, drawX, drawY) < 2500.0)
    {
      if kind == WallKind {
        collider.Update(x, y);
      } else {
        UpdateTree(scrollX, scrollY, mouseX, mouseY, drawX, drawY, sqrt);
      }
    }
  }

  /** The global state the entities share: the two registries and the
      camera scroll. */
  class World {
    var objects: seq<Entity>
    var trees: seq<Entity>
    var scrollX: real
    var scrollY: real

    constructor()
      ensures objects == [] && trees == [] && scrollX == 0.0 && scrollY == 0.0
    {
      objects := [];
      trees := [];
      scrollX := 0.0;
      scrollY := 0.0;
    }
  }

  /** The collider boxes of a registry, in order. */
  function ColliderBoxes(es: seq<Entity>): (r: seq<Box>)
    reads set e | e in es :: e.collider
    ensures |r| == |es| && forall k :: 0 <= k < |es| ==> r[k] == es[k].collider.Bounds()
  {
    if es == [] then [] else [es[0].collider.Bounds()] + ColliderBoxes(es[1..])
  }

  /** No two slots of a registry share a collider (and so no entity occurs twice). */
  predicate CollidersDistinct(es: seq<Entity>)
  {
    forall i, j :: 0 <= i < |es| && 0 <= j < |es| && es[i].collider == es[j].collider ==> i == j
  }

  /** No two distinct collidable entities of a registry overlap. */
  ghost predicate Apart(es: seq<Entity>)
    reads es, set e | e in es :: e.collider
  {
    forall a, b :: a in es && b in es && a != b && a.canCollide && b.canCollide
      ==> !Overlaps(a.collider.Bounds(), b.collider.Bounds())
  }

  /** A registry that ends with `self`, just appended to an apart registry
      that did not hold it, with `self` collidable: what a new oak's
      deleteSelf and deleteSelfTree start from. */
  ghost predicate AppendedTo(s: seq<Entity>, self: Entity)
    reads s, set e | e in s :: e.collider
  {
    |s| > 0 && s[|s| - 1] == self && self !in s[..|s| - 1] && Apart(s[..|s| - 1]) && self.canCollide
  }

  /** The deduplication a new oak runs on one registry keeps that registry
      apart: either nothing blocks the oak and it stays, overlapping no
      collidable entity, or the oak removes itself and whatever else the
      scan removes leaves entities that were apart already. */
  lemma DedupKeepsApart(t: seq<Entity>, oak: Entity)
    requires AppendedTo(t, oak)
    ensures Apart(DeleteScan(t, oak, oak.Blockers(t), 0))
  {
    var s: seq<Entity> := t[..|t| - 1];
    assert t == s + [oak];
    var b := oak.Blockers(t);
    if b == {} {
      DeleteScanUnblocked(t, oak, b, 0);
      UnblockedApart(s, oak);
    } else {
      var e :| e in b;
      var k :| 0 <= k < |t| && t[k] == e;
      assert multiset(s)[oak] == 0;
      assert multiset(t) == multiset(s) + multiset{oak};
      DeleteScanRemovesSelf(t, oak, b, 0, k);
      var r := DeleteScan(t, oak, b, 0);
      forall a | a in r
        ensures a in s
      {
        assert a in multiset(r);
        assert a != oak;
      }
      ApartWithin(s, r);
    }
  }

  /** An apart registry with an entity that nothing in it blocks appended
      is apart. */
  lemma UnblockedApart(s: seq<Entity>, oak: Entity)
    requires Apart(s) && oak.Blockers(s + [oak]) == {}
    ensures Apart(s + [oak])
  {
    var t := s + [oak];
    forall a, c | a in t && c in t && a != c && a.canCollide && c.canCollide
      ensures !Overlaps(a.collider.Bounds(), c.collider.Bounds())
    {
      if a == oak {
        assert c !in oak.Blockers(t);
      } else if c == oak {
        assert a !in oak.Blockers(t);
        OverlapsSymmetric(a.collider.Bounds(), c.collider.Bounds());
      } else {
        assert a in s && c in s;
      }
    }
  }

  /** Every registry drawn from an apart one is apart. */
  lemma ApartWithin(s: seq<Entity>, r: seq<Entity>)
    requires Apart(s) && forall a :: a in r ==> a in s
    ensures Apart(r)
  {
  }

}

=== FILE: frame.dfy ===
/** One frame of the game's logic, and the spawning of the forest. */
module Frame {
  import opened Geometry
  import opened Registry
  import opened Movement
  import opened Entities
  import opened Controllers

  /** The health an entity has after moveLoop's guarded getHit: entities
      whose health is undefined are skipped (`undefined != null` is false);
      the others take the damage under getHit's three-part guard. */
  function HitHealth(health: JsNumber, c: Box, tool: Box, harvestable: bool, destroyable: bool, damage: real): (r: JsNumber)
    ensures health.Undefined? ==> r == Undefined
    ensures health.NaN? ==> r == NaN
    ensures !(Overlaps(c, tool) && harvestable && destroyable) ==> r == health
  {
    if health.Undefined? then health
    else if Overlaps(c, tool) && harvestable && destroyable then Minus(health, damage)
    else health
  }

  /** A numeric health that the tool overlaps drops by exactly the damage,
      and an oak built without health is never damaged however long it is hit. */
  lemma HitHealthFacts(health: JsNumber, c: Box, tool: Box, damage: real, frames: nat)
    ensures health.Num? && Overlaps(c, tool) ==> HitHealth(health, c, tool, true, true, damage) == Num(health.value - damage)
    ensures Repeat(Undefined, c, tool, damage, frames) == Undefined
  {
    UndefinedStays(c, tool, damage, frames);
  }

  /** frames frames of hits by a tool standing still on an oak. */
  function Repeat(health: JsNumber, c: Box, tool: Box, damage: real, frames: nat): JsNumber
  {
    if frames == 0 then health else HitHealth(Repeat(health, c, tool, damage, frames - 1), c, tool, true, true, damage)
  }

  lemma {:induction false} UndefinedStays(c: Box, tool: Box, damage: real, frames: nat)
    ensures Repeat(Undefined, c, tool, damage, frames) == Undefined
  {
    if frames > 0 {
      UndefinedStays(c, tool, damage, frames - 1);
    }
  }

  /** The mutable part of an entity: health, the hover and selected flags
      moveLoop changes, the collision and off-screen flags it leaves alone,
      and the box of its collider. */
  datatype View = View(health: JsNumber, hover: bool, selected: bool, canCollide: bool, offScreen: bool, collider: Box)

  function ViewOf(e: Entity): View
    reads e, e.collider
  {
    View(e.health, e.hover, e.selected, e.canCollide, e.offScreen, e.collider.Bounds())
  }

  /** Every part of the view but the collider is as it was: what
      `Wall.update` does to a wall. */
  predicate OnlyColliderMoved(before: View, after: View)
  {
    after.health == before.health && after.hover == before.hover && after.selected == before.selected &&
    after.canCollide == before.canCollide && after.offScreen == before.offScreen
  }

  /** What the loop of moveLoop does to one entity of `objects`, from the
      view before to the view after: its health follows the guarded getHit
      against the tool box; a tree keeps its collider and recomputes hover
      and selected from the scroll, the mouse and the tool's drawn position;
      a wall moves its collider to its own position and keeps its flags.
      Neither ever changes canCollide or offScreen. */
  predicate UpdatedView(e: Entity, before: View, after: View, scrollX: real, scrollY: real, mouseX: real, mouseY: real,
                        drawX: real, drawY: real, tool: Box, damage: real)
  {
    after.health == HitHealth(before.health, after.collider, tool, e.canBeHarvested, e.canDestroy, damage) &&
    after.canCollide == before.canCollide && after.offScreen == before.offScreen &&
    (e.kind == OakKind ==>
      after.collider == before.collider &&
      after.hover == Overlaps(HoverProbe(after.collider, scrollX, scrollY), MouseBox(mouseX, mouseY)) &&
      (after.selected <==> after.hover && SelectGapSqr(after.collider, scrollX, scrollY, drawX, drawY) < 2500.0)) &&
    (e.kind == WallKind ==>
      after.collider == Box(e.x, e.y, e.collider.w, e.collider.h) &&
      after.hover == before.hover && after.selected == before.selected)
  }

  /** The loop of moveLoop over `objects`: every entity in order runs its
      update and, when its health is not undefined, getHit against the tool
      box. Scroll and the tool's drawn position are the ones of this frame
      before the player and the tool move. */
  method UpdateObjects(objs: seq<Entity>, scrollX: real, scrollY: real, mouseX: real, mouseY: real,
                       drawX: real, drawY: real, tool: Box, damage: real, sqrt: real -> real)
    requires IsSqrt(sqrt) && CollidersDistinct(objs)
    modifies objs, set e | e in objs :: e.collider
    ensures forall e :: e in objs ==>
      UpdatedView(e, old(ViewOf(e)), ViewOf(e), scrollX, scrollY, mouseX, mouseY, drawX, drawY, tool, damage)
  {
    var n := |objs|;
    var i := 0;
    while i < n
      invariant 0 <= i <= n
      invariant forall j :: i <= j < n ==> unchanged(objs[j]) && unchanged(objs[j].collider)
      invariant forall j :: 0 <= j < i ==>
        UpdatedView(objs[j], old(ViewOf(objs[j])), ViewOf(objs[j]), scrollX, scrollY, mouseX, mouseY, drawX, drawY, tool, damage)
    {
      var e := objs[i];
      e.Update(scrollX, scrollY, mouseX, mouseY, drawX, drawY, sqrt);
      if e.health != Undefined {
        e.GetHit(tool, damage);
      }
      i := i + 1;
    }
  }

  /** The first half of moveLoop: the loop over `objects`, then the wall's
      own update. The wall's collider ends at the wall, and every entity of
      `objects` (the wall included, when it is there) is updated once. */
  method UpdateEntities(world: World, wall: Entity, mouseX: real, mouseY: real, drawX: real, drawY: real,
                        tool: Box, damage: real, sqrt: real -> real)
    requires IsSqrt(sqrt) && wall.kind == WallKind
    requires CollidersDistinct(world.objects)
    requires forall e :: e in world.objects && e.collider == wall.collider ==> e == wall
    modifies world.objects, set e | e in world.objects :: e.collider, wall, wall.collider
    ensures forall e :: e in world.objects ==>
      UpdatedView(e, old(ViewOf(e)), ViewOf(e), world.scrollX, world.scrollY, mouseX, mouseY, drawX, drawY, tool, damage)
    ensures wall.collider.x == wall.x && wall.collider.y == wall.y
    ensures wall !in old(world.objects) ==> OnlyColliderMoved(old(ViewOf(wall)), ViewOf(wall))
  {
    UpdateObjects(world.objects, world.scrollX, world.scrollY, mouseX, mouseY, drawX, drawY, tool, damage, sqrt);
    label looped:
    wall.Update(world.scrollX, world.scrollY, mouseX, mouseY, drawX, drawY, sqrt);
    forall e | e in world.objects
      ensures ViewOf(e) == old@looped(ViewOf(e))
    {
      // The wall's collider already sat at the wall's position; no other
      // entity shares the wall's collider.
      assert e != wall ==> e.collider != wall.collider;
    }
  }

  /** The second half of moveLoop: the player moves through the colliders
      of `objects`, the camera follows it, and the tool follows the player
      and aims at the mouse. */
  method MoveControllers(world: World, player: Player, tool: Tool, inputs: Inputs,
                         mouseX: real, mouseY: real, viewportWidth: real, viewportHeight: real,
                         sqrt: real -> real)
    requires IsSqrt(sqrt) && tool.target == player
    modifies world`scrollX, world`scrollY, player`x, player`y, tool`x, tool`y, tool`drawX, tool`drawY
    ensures player.Bounds() == CollisionStep(old(player.Bounds()), ColliderBoxes(world.objects), inputs,
                                             EffectiveSpeed(player.speed, player.sprintMultiplier, inputs))
    ensures world.scrollX == ScrollX(old(world.scrollX), player.x, viewportWidth)
    ensures world.scrollY == ScrollY(old(world.scrollY), player.y, viewportHeight)
    ensures tool.x == player.x && tool.y == player.y
    ensures var centre := AimCentre(player.x, player.y, player.w, player.h, world.scrollX, world.scrollY);
      Vector2(tool.drawX, tool.drawY)
        == ClampPositionToCircle(mouseX - tool.w / 2.0, mouseY - tool.h / 2.0, centre.x, centre.y, 100.0, sqrt)
    ensures Vector2(tool.drawX, tool.drawY).DistanceSqr(AimCentre(player.x, player.y, player.w, player.h, world.scrollX, world.scrollY))
            <= 100.0 * 100.0
    ensures Vector2(tool.drawX, tool.drawY) == Vector2(mouseX - tool.w / 2.0, mouseY - tool.h / 2.0)
        <==> Vector2(mouseX - tool.w / 2.0, mouseY - tool.h / 2.0).DistanceSqr(AimCentre(player.x, player.y, player.w, player.h, world.scrollX, world.scrollY))
             <= 100.0 * 100.0
  {
    ghost var boxes := ColliderBoxes(world.objects);
    player.Move(world, inputs, viewportWidth, viewportHeight);
    ghost var moved := player.Bounds();
    tool.Move(world.scrollX, world.scrollY, mouseX, mouseY, sqrt);
    assert player.Bounds() == moved;
    assert ColliderBoxes(world.objects) == boxes;
  }

  /** moveLoop: the entities of `objects` update and take hits, the wall
      updates again, the player moves and the tool follows. Tree hover and
      selection read the scroll and the tool's drawn position as they were
      before the player and the tool moved. */
  method MoveLoop(world: World, wall: Entity, player: Player, tool: Tool, inputs: Inputs,
                  mouseX: real, mouseY: real, viewportWidth: real, viewportHeight: real,
                  sqrt: real -> real)
    requires IsSqrt(sqrt) && tool.target == player && wall.kind == WallKind
    requires CollidersDistinct(world.objects)
    requires forall e :: e in world.objects && e.collider == wall.collider ==> e == wall
    modifies world`scrollX, world`scrollY, player`x, player`y, tool`x, tool`y, tool`drawX, tool`drawY
    modifies world.objects, set e | e in world.objects :: e.collider, wall, wall.collider
    ensures world.objects == old(world.objects) && world.trees == old(world.trees)
    ensures forall e :: e in world.objects ==>
      UpdatedView(e, old(ViewOf(e)), ViewOf(e), old(world.scrollX), old(world.scrollY), mouseX, mouseY,
                  old(tool.drawX), old(tool.drawY), old(tool.Bounds()), tool.damage)
    ensures wall.collider.x == wall.x && wall.collider.y == wall.y
    ensures wall !in old(world.objects) ==> OnlyColliderMoved(old(ViewOf(wall)), ViewOf(wall))
    ensures player.Bounds() == CollisionStep(old(player.Bounds()), ColliderBoxes(world.objects), inputs,
                                             EffectiveSpeed(player.speed, player.sprintMultiplier, inputs))
    ensures world.scrollX == ScrollX(old(world.scrollX), player.x, viewportWidth)
    ensures world.scrollY == ScrollY(old(world.scrollY), player.y, viewportHeight)
    ensures tool.x == player.x && tool.y == player.y
    ensures var centre := AimCentre(player.x, player.y, player.w, player.h, world.scrollX, world.scrollY);
      Vector2(tool.drawX, tool.drawY)
        == ClampPositionToCircle(mouseX - tool.w / 2.0, mouseY - tool.h / 2.0, centre.x, centre.y, 100.0, sqrt)
    ensures Vector2(tool.drawX, tool.drawY).DistanceSqr(AimCentre(player.x, player.y, player.w, player.h, world.scrollX, world.scrollY))
            <= 100.0 * 100.0
    ensures Vector2(tool.drawX, tool.drawY) == Vector2(mouseX - tool.w / 2.0, mouseY - tool.h / 2.0)
        <==> Vector2(mouseX - tool.w / 2.0, mouseY - tool.h / 2.0).DistanceSqr(AimCentre(player.x, player.y, player.w, player.h, world.scrollX, world.scrollY))
             <= 100.0 * 100.0
  {
    UpdateEntities(world, wall, mouseX, mouseY, tool.drawX, tool.drawY, tool.Bounds(), tool.damage, sqrt);
    label updated:
    assert player.Bounds() == old(player.Bounds());
    MoveControllers(world, player, tool, inputs, mouseX, mouseY, viewportWidth, viewportHeight, sqrt);
    assert ViewOf(wall) == old@updated(ViewOf(wall));
    forall e | e in world.objects
      ensures ViewOf(e) == old@updated(ViewOf(e))
    {
    }
  }

  /** The two calls spawnTrees makes on a new oak: deleteSelf, then
      deleteSelfTree. Each registry ends as the splice-while-scanning
      result over itself, so it only loses elements (the oak among them
      when something blocks it), and both registries end apart. */
  method Dedup(world: World, oak: Entity)
    requires AppendedTo(world.objects, oak) && AppendedTo(world.trees, oak)
    modifies world`objects, world`trees
    ensures world.objects == DeleteScan(old(world.objects), oak, oak.Blockers(old(world.objects)), 0)
    ensures world.trees == DeleteScan(old(world.trees), oak, oak.Blockers(old(world.trees)), 0)
    ensures Apart(world.objects) && Apart(world.trees)
    ensures multiset(world.objects) <= multiset(old(world.objects)) && |world.objects| <= |old(world.objects)|
    ensures multiset(world.trees) <= multiset(old(world.trees)) && |world.trees| <= |old(world.trees)|
  {
    ghost var objects0, trees0 := world.objects, world.trees;
    oak.DeleteSelf(world);
    DedupKeepsApart(objects0, oak);
    assert Apart(world.objects);
    ghost var objects1 := world.objects;
    oak.DeleteSelfTree(world);
    DedupKeepsApart(trees0, oak);
    assert world.objects == objects1;
  }

  /** One pass of spawnTrees' loop: a new oak (health undefined) at the
      given position that deletes itself from `objects` and from `trees`
      when it lands on a collidable entity. */
  method SpawnOak(world: World, x: real, y: real, w: real, h: real) returns (oak: Entity)
    requires Apart(world.objects) && Apart(world.trees)
    modifies world`objects, world`trees
    ensures fresh(oak) && oak.kind == OakKind && oak.health == Undefined
    ensures oak.x == x && oak.y == y && oak.w == w && oak.h == h
    ensures world.objects == DeleteScan(old(world.objects) + [oak], oak, oak.Blockers(old(world.objects) + [oak]), 0)
    ensures world.trees == DeleteScan(old(world.trees) + [oak], oak, oak.Blockers(old(world.trees) + [oak]), 0)
    ensures Apart(world.objects) && Apart(world.trees)
    ensures forall e :: e in world.objects ==> e in old(world.objects) || e == oak
    ensures forall e :: e in world.trees ==> e in old(world.trees) || e == oak
    ensures |world.objects| <= |old(world.objects)| + 1
    ensures |world.trees| <= |old(world.trees)| + 1
  {
    ghost var objects0, trees0 := world.objects, world.trees;
    oak := new Entity.Oak(world, x, y, w, h, Undefined);
    assert objects0 == world.objects[..|world.objects| - 1];
    assert trees0 == world.trees[..|world.trees| - 1];
    assert Apart(objects0) && Apart(trees0);
    Dedup(world, oak);
    forall e | e in world.objects
      ensures e in objects0 || e == oak
    {
      assert e in multiset(objects0 + [oak]);
    }
    forall e | e in world.trees
      ensures e in trees0 || e == oak
    {
      assert e in multiset(trees0 + [oak]);
    }
  }

  /** spawnTrees with the random positions supplied: one oak per position,
      built in order at that position with the given size. Collidable
      entities of each registry stay apart, and every entity of either
      registry is an old one or one of these oaks, still healthless. */
  method SpawnTrees(world: World, w: real, h: real, positions: seq<(int, int)>) returns (ghost oaks: seq<Entity>)
    requires Apart(world.objects) && Apart(world.trees)
    modifies world`objects, world`trees
    ensures |oaks| == |positions|
    ensures forall k :: 0 <= k < |oaks| ==>
      fresh(oaks[k]) && oaks[k].kind == OakKind &&
      oaks[k].x == positions[k].0 as real && oaks[k].y == positions[k].1 as real && oaks[k].w == w && oaks[k].h == h
    ensures Apart(world.objects) && Apart(world.trees)
    ensures forall e :: e in world.objects ==>
      e in old(world.objects) || (e in oaks && fresh(e) && e.kind == OakKind && e.health == Undefined)
    ensures forall e :: e in world.trees ==>
      e in old(world.trees) || (e in oaks && fresh(e) && e.kind == OakKind && e.health == Undefined)
    ensures |world.objects| <= |old(world.objects)| + |positions|
    ensures |world.trees| <= |old(world.trees)| + |positions|
  {
    oaks := [];
    var i := 0;
    while i < |positions|
      invariant 0 <= i <= |positions| && |oaks| == i
      invariant forall k :: 0 <= k < i ==>
        fresh(oaks[k]) && oaks[k].kind == OakKind &&
        oaks[k].x == positions[k].0 as real && oaks[k].y == positions[k].1 as real && oaks[k].w == w && oaks[k].h == h
      invariant Apart(world.objects) && Apart(world.trees)
      invariant forall e :: e in world.objects ==>
        e in old(world.objects) || (e in oaks && fresh(e) && e.kind == OakKind && e.health == Undefined)
      invariant forall e :: e in world.trees ==>
        e in old(world.trees) || (e in oaks && fresh(e) && e.kind == OakKind && e.health == Undefined)
      invariant |world.objects| <= |old(world.objects)| + i
      invariant |world.trees| <= |old(world.trees)| + i
    {
      var (px, py) := positions[i];
      var oak := SpawnOak(world, px as real, py as real, w, h);
      ghost var next := oaks + [oak];
      forall k | 0 <= k <= i
        ensures fresh(next[k]) && next[k].kind == OakKind
        ensures next[k].x == positions[k].0 as real && next[k].y == positions[k].1 as real && next[k].w == w && next[k].h == h
      {
        if k < i {
          assert next[k] == oaks[k];
        }
      }
      oaks := next;
      i := i + 1;
    }
  }
}

=== FILE: geometry.dfy ===
/** Geometry of the game: axis-aligned boxes and their overlap test, the
    two-component vector, and the projection of a point onto a circle.
    JavaScript numbers are modelled as exact reals. */
module Geometry {

  /** Anything with x, y, w and h: a collider, the player, the tool, a probe. */
  datatype Box = Box(x: real, y: real, w: real, h: real)

  /** checkCollision: two boxes overlap unless one lies entirely above,
      below, left of or right of the other. The four tests are strict, so
      boxes whose edges only touch still overlap. */
  predicate Overlaps(a: Box, b: Box)
  {
    !(a.y + a.h < b.y || a.y > b.y + b.h || a.x + a.w < b.x || a.x > b.x + b.w)
  }

  /** The same test read as closed intervals meeting on both axes. */
  predicate IntervalsMeet(a: Box, b: Box)
  {
    b.x <= a.x + a.w && a.x <= b.x + b.w && b.y <= a.y + a.h && a.y <= b.y + b.h
  }

  lemma OverlapsIsIntervalTest(a: Box, b: Box)
    ensures Overlaps(a, b) <==> IntervalsMeet(a, b)
  {
  }

  lemma OverlapsSymmetric(a: Box, b: Box)
    ensures Overlaps(a, b) <==> Overlaps(b, a)
  {
  }

  /** Boxes that share only an edge (or a corner) count as overlapping. */
  lemma TouchingEdgesOverlap(a: Box, b: Box)
    requires a.w >= 0.0 && a.h >= 0.0 && b.w >= 0.0 && b.h >= 0.0
    requires b.x == a.x + a.w || b.y == a.y + a.h
    requires b.x <= a.x + a.w && b.y <= a.y + a.h && a.x <= b.x && a.y <= b.y
    ensures Overlaps(a, b)
  {
  }

  /** A box overlaps itself exactly when its sizes are not negative. */
  lemma SelfOverlap(a: Box)
    ensures Overlaps(a, a) <==> a.w >= 0.0 && a.h >= 0.0
  {
  }

  /** `inner` lies within `outer`. */
  predicate Inside(inner: Box, outer: Box)
  {
    outer.x <= inner.x && inner.x + inner.w <= outer.x + outer.w &&
    outer.y <= inner.y && inner.y + inner.h <= outer.y + outer.h
  }

  /** Whatever touches a box touches every box around it. */
  lemma OverlapsGrows(c: Box, inner: Box, outer: Box)
    requires Inside(inner, outer) && inner.w >= 0.0 && inner.h >= 0.0
    requires Overlaps(c, inner)
    ensures Overlaps(c, outer)
  {
  }

  /** Vector2: a real-valued pair; every operation returns a new vector. */
  datatype Vector2 = Vector2(x: real, y: real) {

    function Add(v: Vector2): Vector2
    {
      Vector2(x + v.x, y + v.y)
    }

    function Subtract(v: Vector2): Vector2
    {
      Vector2(x - v.x, y - v.y)
    }

    function Scale(s: real): (r: Vector2)
      ensures r.MagnitudeSqr() == s * s * MagnitudeSqr()
    {
      Vector2(x * s, y * s)
    }

    /** dot as the script writes it: the y components are added, not multiplied. */
    function Dot(v: Vector2): real
    {
      x * v.x + y + v.y
    }

    /** The inner product that dot evidently means. */
    function InnerProduct(v: Vector2): real
    {
      x * v.x + y * v.y
    }

    /** Interpolation from this towards v by t, with t clamped to at most 1
        (negative t is allowed and extrapolates away from v). */
    function MoveTowards(v: Vector2, t: real): (r: Vector2)
      ensures t >= 1.0 ==> r == v
      ensures t == 0.0 ==> r == this
    {
      var t' := if t < 1.0 then t else 1.0;
      this.Add(v.Subtract(this).Scale(t'))
    }

    function MagnitudeSqr(): (r: real)
      ensures r >= 0.0
    {
      SquareSign(x);
      SquareSign(y);
      x * x + y * y
    }

    function DistanceSqr(v: Vector2): (r: real)
      ensures r == Subtract(v).MagnitudeSqr()
    {
      var dx := x - v.x;
      var dy := y - v.y;
      dx * dx + dy * dy
    }
  }

  /** The square of a real is never negative, and positive off zero. */
  lemma SquareSign(a: real)
    ensures a * a >= 0.0
    ensures a != 0.0 ==> a * a > 0.0
  {
    if a < 0.0 {
      assert a * a == (-a) * (-a);
    }
  }

  /** Squaring keeps the order of non-negative numbers. */
  lemma SquareMonotone(a: real, b: real)
    requires 0.0 <= a <= b
    ensures a * a <= b * b
    ensures a < b ==> a * a < b * b
  {
    if a < b {
      calc {
        a * a;
      <=
        a * b;
      <
        b * b;
      }
    }
  }

  /** add and subtract undo each other; add and the distance are symmetric. */
  lemma AddSubtractInverse(u: Vector2, v: Vector2)
    ensures u.Add(v).Subtract(v) == u && u.Subtract(v).Add(v) == u
    ensures u.Add(v) == v.Add(u)
    ensures u.DistanceSqr(v) == v.DistanceSqr(u)
  {
  }

  /** Scaling both terms of a sum of squares scales the sum by the square. */
  lemma ScaledSquares(k: real, a: real, b: real)
    ensures (k * a) * (k * a) + (k * b) * (k * b) == k * k * (a * a + b * b)
  {
  }

  /** dot is not the inner product: the zero vector dotted with (0, 1) gives 1. */
  lemma DotIsNotInnerProduct()
    ensures Vector2(0.0, 0.0).Dot(Vector2(0.0, 1.0)) == 1.0
    ensures Vector2(0.0, 0.0).InnerProduct(Vector2(0.0, 1.0)) == 0.0
  {
  }

  /** The laws the corrected inner product keeps: symmetry, agreement with
      the squared magnitude, and homogeneity and additivity in the first
      argument. */
  lemma InnerProductLaws(u: Vector2, v: Vector2, s: real)
    ensures u.InnerProduct(v) == v.InnerProduct(u)
    ensures u.InnerProduct(u) == u.MagnitudeSqr()
    ensures u.Scale(s).InnerProduct(v) == s * u.InnerProduct(v)
    ensures u.Add(v).InnerProduct(v) == u.InnerProduct(v) + v.MagnitudeSqr()
  {
    InnerProductHomogeneous(u, v, s);
    InnerProductAdditive(u, v);
  }

  lemma InnerProductHomogeneous(u: Vector2, v: Vector2, s: real)
    ensures u.Scale(s).InnerProduct(v) == s * u.InnerProduct(v)
  {
    assert (s * u.x) * v.x == s * (u.x * v.x);
    assert (s * u.y) * v.y == s * (u.y * v.y);
  }

  lemma InnerProductAdditive(u: Vector2, v: Vector2)
    ensures u.Add(v).InnerProduct(v) == u.InnerProduct(v) + v.MagnitudeSqr()
  {
    assert (u.x + v.x) * v.x == u.x * v.x + v.x * v.x;
    assert (u.y + v.y) * v.y == u.y * v.y + v.y * v.y;
  }

  /** For 0 <= t <= 1, moveTowards leaves the fraction (1 - t) of the way to go. */
  lemma {:induction false} MoveTowardsRemaining(a: Vector2, b: Vector2, t: real)
    requires 0.0 <= t <= 1.0
    ensures a.MoveTowards(b, t).DistanceSqr(b) == (1.0 - t) * (1.0 - t) * a.DistanceSqr(b)
  {
    var r := a.MoveTowards(b, t);
    var dx, dy := a.x - b.x, a.y - b.y;
    assert r.x - b.x == (1.0 - t) * dx;
    assert r.y - b.y == (1.0 - t) * dy;
    ScaledSquares(1.0 - t, dx, dy);
  }

  /** Math.sqrt, passed in: any function that gives the non-negative
      square root of every non-negative number. */
  ghost predicate IsSqrt(sqrt: real -> real)
  {
    forall v :: v >= 0.0 ==> sqrt(v) >= 0.0 && sqrt(v) * sqrt(v) == v
  }

  /** For non-negative d2 and limit, sqrt(d2) < limit exactly when
      d2 < limit * limit: a distance gate can be read on squared distances. */
  lemma {:induction false} SqrtBelow(sqrt: real -> real, d2: real, limit: real)
    requires IsSqrt(sqrt) && d2 >= 0.0 && limit >= 0.0
    ensures sqrt(d2) < limit <==> d2 < limit * limit
  {
    var s := sqrt(d2);
    assert s >= 0.0 && s * s == d2;
    if s < limit {
      SquareMonotone(s, limit);
    } else {
      SquareMonotone(limit, s);
    }
  }

  /** In the scaled branch of the clamp the offset lands on the circle. */
  lemma {:induction false} ScaledOntoCircle(dx: real, dy: real, distance: real, radius: real)
    requires distance > 0.0 && distance * distance == dx * dx + dy * dy
    ensures (dx * (radius / distance)) * (dx * (radius / distance)) + (dy * (radius / distance)) * (dy * (radius / distance)) == radius * radius
  {
    var s := radius / distance;
    assert s * distance == radius;
    calc {
      (dx * s) * (dx * s) + (dy * s) * (dy * s);
      { ScaledSquares(s, dx, dy); }
      s * s * (dx * dx + dy * dy);
      s * s * (distance * distance);
      (s * distance) * (s * distance);
    }
  }

  /** clampPositionToCircle: the point (x, y) when it lies within radius of
      (cx, cy), otherwise the point where the ray from the centre through
      (x, y) meets the circle. */
  function ClampPositionToCircle(x: real, y: real, cx: real, cy: real, radius: real, sqrt: real -> real): Vector2
    requires radius >= 0.0
  {
    var dx := x - cx;
    var dy := y - cy;
    var distance := sqrt(Vector2(dx, dy).MagnitudeSqr());
    if distance > radius then
      var scale := radius / distance;
      Vector2(cx + dx * scale, cy + dy * scale)
    else
      Vector2(cx + dx, cy + dy)
  }

  /** A point given as centre plus offset lies at the offset's squared length. */
  lemma OffsetDistance(cx: real, cy: real, ox: real, oy: real)
    ensures Vector2(cx + ox, cy + oy).DistanceSqr(Vector2(cx, cy)) == ox * ox + oy * oy
  {
    var ex, ey := cx + ox - cx, cy + oy - cy;
    assert ex == ox && ey == oy;
  }

  /** The arithmetic of the two branches, with distance standing for the square root. */
  lemma {:induction false} ClampBranches(dx: real, dy: real, distance: real, radius: real)
    requires radius >= 0.0 && distance >= 0.0 && distance * distance == dx * dx + dy * dy
    ensures distance > radius ==>
      radius * radius < dx * dx + dy * dy &&
      (dx * (radius / distance)) * (dx * (radius / distance)) + (dy * (radius / distance)) * (dy * (radius / distance)) == radius * radius
    ensures distance <= radius ==> dx * dx + dy * dy <= radius * radius
  {
    if distance > radius {
      SquareMonotone(radius, distance);
      ScaledOntoCircle(dx, dy, distance, radius);
    } else {
      SquareMonotone(distance, radius);
    }
  }

  /** The clamped point is never farther than radius from the centre, and it
      is the original point exactly when that point was within radius. */
  lemma {:induction false} ClampWithinCircle(x: real, y: real, cx: real, cy: real, radius: real, sqrt: real -> real)
    requires IsSqrt(sqrt) && radius >= 0.0
    ensures ClampPositionToCircle(x, y, cx, cy, radius, sqrt).DistanceSqr(Vector2(cx, cy)) <= radius * radius
    ensures ClampPositionToCircle(x, y, cx, cy, radius, sqrt) == Vector2(x, y)
            <==> Vector2(x, y).DistanceSqr(Vector2(cx, cy)) <= radius * radius
  {
    var dx, dy := x - cx, y - cy;
    var d2 := Vector2(dx, dy).MagnitudeSqr();
    var distance := sqrt(d2);
    assert distance >= 0.0 && distance * distance == d2;
    ClampBranches(dx, dy, distance, radius);
    var p := Vector2(x, y);
    var c := Vector2(cx, cy);
    var r := ClampPositionToCircle(x, y, cx, cy, radius, sqrt);
    assert p == Vector2(cx + dx, cy + dy);
    OffsetDistance(cx, cy, dx, dy);
    assert p.DistanceSqr(c) == d2;
    if distance > radius {
      var s := radius / distance;
      assert r == Vector2(cx + dx * s, cy + dy * s);
      OffsetDistance(cx, cy, dx * s, dy * s);
      assert r.DistanceSqr(c) == radius * radius;
      assert r != p;
    } else {
      assert r == p;
    }
  }
}

=== FILE: movement.dfy ===
/** The player's movement rules as values: the input snapshot, the speed
    selection, the per-axis move-then-revert resolution against the
    colliders, and the eased camera scroll. The Player class applies them. */
module Movement {
  import opened Geometry

  /** The input flags the movement reads (each 0 or 1 in the script). */
  datatype Inputs = Inputs(up: bool, down: bool, left: bool, right: bool, shift: bool, space: bool)

  function Flag(b: bool): real
  {
    if b then 1.0 else 0.0
  }

  /** The signed step `(plus - minus) * speed` of two opposite keys, each
      0 or 1, written out by cases. */
  function Velocity(plus: bool, minus: bool, speed: real): real
  {
    if plus == minus then 0.0 else if plus then speed else -speed
  }

  /** The case split agrees with the product the movement code writes. */
  lemma VelocityIsProduct(plus: bool, minus: bool, speed: real)
    ensures Velocity(plus, minus, speed) == (Flag(plus) - Flag(minus)) * speed
  {
  }

  /** (inputs.down - inputs.up) * speed */
  function VerticalVelocity(inputs: Inputs, speed: real): real
  {
    Velocity(inputs.down, inputs.up, speed)
  }

  /** (inputs.right - inputs.left) * speed */
  function HorizontalVelocity(inputs: Inputs, speed: real): real
  {
    Velocity(inputs.right, inputs.left, speed)
  }

  predicate Diagonal(inputs: Inputs)
  {
    (inputs.right || inputs.left) && (inputs.up || inputs.down)
  }

  predicate Sprinting(inputs: Inputs)
  {
    inputs.shift || inputs.space
  }

  /** The speed player.move hands to the collision step: divided by 1.25
      while a horizontal and a vertical key are both held, then multiplied by
      the sprint multiplier while shift or space is held. */
  function EffectiveSpeed(speed: real, sprintMultiplier: real, inputs: Inputs): real
  {
    var s := if Diagonal(inputs) then speed / 1.25 else speed;
    if Sprinting(inputs) then s * sprintMultiplier else s
  }

  /** The speed is speed, or 4/5 of it on two axes, times the multiplier
      when sprinting; with the player's constants 3 and 1.5 that is 3, 2.4,
      4.5 or 3.6. */
  lemma EffectiveSpeedCases(speed: real, sprintMultiplier: real, inputs: Inputs)
    ensures EffectiveSpeed(speed, sprintMultiplier, inputs)
         == speed * (if Diagonal(inputs) then 0.8 else 1.0) * (if Sprinting(inputs) then sprintMultiplier else 1.0)
    ensures EffectiveSpeed(3.0, 1.5, inputs)
         == if Diagonal(inputs) then (if Sprinting(inputs) then 3.6 else 2.4) else (if Sprinting(inputs) then 4.5 else 3.0)
  {
  }

  /** Dividing by 1.25 does not normalise a diagonal step: a step along
      both axes is 1.28 times as long, squared, as a step along one. The
      reduction also applies when opposite keys cancel on one axis. */
  lemma DiagonalStepLength(speed: real, sprintMultiplier: real, inputs: Inputs)
    requires inputs.right != inputs.left && inputs.up != inputs.down
    ensures var s := EffectiveSpeed(speed, sprintMultiplier, inputs);
      var full := speed * (if Sprinting(inputs) then sprintMultiplier else 1.0);
      Vector2(HorizontalVelocity(inputs, s), VerticalVelocity(inputs, s)).MagnitudeSqr() == 1.28 * full * full
  {
    var s := EffectiveSpeed(speed, sprintMultiplier, inputs);
    var full := speed * (if Sprinting(inputs) then sprintMultiplier else 1.0);
    EffectiveSpeedCases(speed, sprintMultiplier, inputs);
    assert s == 0.8 * full;
    var h, v := HorizontalVelocity(inputs, s), VerticalVelocity(inputs, s);
    assert h * h == s * s && v * v == s * s;
    assert Vector2(h, v).MagnitudeSqr() == 2.0 * (s * s);
  }

  datatype Axis = Vertical | Horizontal

  /** The coordinate an axis moves. */
  function Along(b: Box, axis: Axis): real
  {
    if axis == Vertical then b.y else b.x
  }

  function Shift(b: Box, axis: Axis, d: real): (r: Box)
    ensures Along(r, axis) == Along(b, axis) + d
    ensures r.w == b.w && r.h == b.h
    ensures axis == Vertical ==> r.x == b.x
    ensures axis == Horizontal ==> r.y == b.y
  {
    if axis == Vertical then b.(y := b.y + d) else b.(x := b.x + d)
  }

  /** The loop of verticalCollision/horizontalCollision after the step:
      colliders are visited in order, and each one that overlaps the box as
      it stands at that moment moves it back by twice delta. */
  function Settle(p: Box, colliders: seq<Box>, axis: Axis, delta: real): (r: Box)
    ensures r.w == p.w && r.h == p.h
    ensures axis == Vertical ==> r.x == p.x
    ensures axis == Horizontal ==> r.y == p.y
    decreases |colliders|
  {
    if colliders == [] then p
    else
      var q := if Overlaps(p, colliders[0]) then Shift(p, axis, -2.0 * delta) else p;
      Settle(q, colliders[1..], axis, delta)
  }

  /** How many colliders the scan of Settle finds overlapping. */
  function Reverts(p: Box, colliders: seq<Box>, axis: Axis, delta: real): (k: nat)
    ensures k <= |colliders|
    decreases |colliders|
  {
    if colliders == [] then 0
    else if Overlaps(p, colliders[0]) then 1 + Reverts(Shift(p, axis, -2.0 * delta), colliders[1..], axis, delta)
    else Reverts(p, colliders[1..], axis, delta)
  }

  /** The total distance the scan of Settle moves the box back. */
  function Pushback(p: Box, colliders: seq<Box>, axis: Axis, delta: real): real
    decreases |colliders|
  {
    if colliders == [] then 0.0
    else if Overlaps(p, colliders[0]) then 2.0 * delta + Pushback(Shift(p, axis, -2.0 * delta), colliders[1..], axis, delta)
    else Pushback(p, colliders[1..], axis, delta)
  }

  lemma {:induction false} SettleByPushback(p: Box, colliders: seq<Box>, axis: Axis, delta: real)
    ensures Along(Settle(p, colliders, axis, delta), axis) == Along(p, axis) - Pushback(p, colliders, axis, delta)
    decreases |colliders|
  {
    if colliders != [] {
      if Overlaps(p, colliders[0]) {
        SettleByPushback(Shift(p, axis, -2.0 * delta), colliders[1..], axis, delta);
      } else {
        SettleByPushback(p, colliders[1..], axis, delta);
      }
    }
  }

  /** n copies of m added up. */
  function Times(n: nat, m: real): real
  {
    if n == 0 then 0.0 else m + Times(n - 1, m)
  }

  lemma {:induction false} TimesIsProduct(n: nat, m: real)
    ensures Times(n, m) == m * n as real
  {
    if n > 0 {
      TimesIsProduct(n - 1, m);
      OneMoreStep(m, (n - 1) as real);
    }
  }

  lemma {:induction false} PushbackCounts(p: Box, colliders: seq<Box>, axis: Axis, delta: real)
    ensures Pushback(p, colliders, axis, delta) == Times(Reverts(p, colliders, axis, delta), 2.0 * delta)
    decreases |colliders|
  {
    if colliders != [] {
      var rest := colliders[1..];
      if Overlaps(p, colliders[0]) {
        PushbackCounts(Shift(p, axis, -2.0 * delta), rest, axis, delta);
      } else {
        PushbackCounts(p, rest, axis, delta);
      }
    }
  }

  /** The arithmetic of one more revert. */
  lemma OneMoreStep(m: real, k: real)
    ensures m + m * k == m * (k + 1.0)
  {
  }

  /** Each overlapping collider found during the scan subtracts 2 * delta. */
  lemma {:induction false} SettleByReverts(p: Box, colliders: seq<Box>, axis: Axis, delta: real)
    ensures Along(Settle(p, colliders, axis, delta), axis)
         == Along(p, axis) - Times(Reverts(p, colliders, axis, delta), 2.0 * delta)
  {
    SettleByPushback(p, colliders, axis, delta);
    PushbackCounts(p, colliders, axis, delta);
  }

  /** A box that overlaps no collider is left where it is. */
  lemma {:induction false} SettleClear(p: Box, colliders: seq<Box>, axis: Axis, delta: real)
    requires forall c :: c in colliders ==> !Overlaps(p, c)
    ensures Settle(p, colliders, axis, delta) == p
    decreases |colliders|
  {
    if colliders != [] {
      assert colliders[0] in colliders;
      SettleClear(p, colliders[1..], axis, delta);
    }
  }

  /** With no movement on the axis nothing moves, however many colliders overlap. */
  lemma {:induction false} SettleStill(p: Box, colliders: seq<Box>, axis: Axis)
    ensures Settle(p, colliders, axis, 0.0) == p
    decreases |colliders|
  {
    if colliders != [] {
      assert Shift(p, axis, -2.0 * 0.0) == p;
      SettleStill(p, colliders[1..], axis);
    }
  }

  /** One axis of the collision step: move by delta, then settle. */
  function AxisMove(p: Box, colliders: seq<Box>, axis: Axis, delta: real): Box
  {
    Settle(Shift(p, axis, delta), colliders, axis, delta)
  }

  /** The coordinate ends at its start plus delta, less 2 * delta per
      overlap found; it stays put when delta is 0 and ends at start + delta
      when the stepped box overlaps nothing. The other coordinate and the
      size never change. */
  lemma AxisMoveFacts(p: Box, colliders: seq<Box>, axis: Axis, delta: real)
    ensures var r := AxisMove(p, colliders, axis, delta);
      var k := Reverts(Shift(p, axis, delta), colliders, axis, delta);
      Along(r, axis) == Along(p, axis) + delta - Times(k, 2.0 * delta) &&
      r.w == p.w && r.h == p.h &&
      (axis == Vertical ==> r.x == p.x) && (axis == Horizontal ==> r.y == p.y)
    ensures delta == 0.0 ==> AxisMove(p, colliders, axis, delta) == p
    ensures (forall c :: c in colliders ==> !Overlaps(Shift(p, axis, delta), c)) ==>
      AxisMove(p, colliders, axis, delta) == Shift(p, axis, delta)
  {
    SettleByReverts(Shift(p, axis, delta), colliders, axis, delta);
    if delta == 0.0 {
      assert Shift(p, axis, delta) == p;
      SettleStill(p, colliders, axis);
    }
    if forall c :: c in colliders ==> !Overlaps(Shift(p, axis, delta), c) {
      SettleClear(Shift(p, axis, delta), colliders, axis, delta);
    }
  }

  /** Moving into a single obstacle: the box ends delta short of where it
      started, not back at its start. */
  lemma SingleObstacleOvershoot(p: Box, c: Box, axis: Axis, delta: real)
    requires Overlaps(Shift(p, axis, delta), c)
    ensures AxisMove(p, [c], axis, delta) == Shift(p, axis, -delta)
  {
    var q := Shift(p, axis, delta);
    assert Settle(q, [c], axis, delta) == Settle(Shift(q, axis, -2.0 * delta), [], axis, delta);
    assert Shift(q, axis, -2.0 * delta) == Shift(p, axis, -delta);
  }

  /** The player (40 x 40) one pixel below the wall (500, 150, 100, 100) and
      moving up at speed 3 is pushed 3 pixels further down, then next frame
      steps back to where it was: it oscillates between 251 and 254 instead
      of settling at the wall's lower edge (250). */
  lemma WallScenario()
    ensures AxisMove(Box(500.0, 251.0, 40.0, 40.0), [Box(500.0, 150.0, 100.0, 100.0)], Vertical, -3.0)
         == Box(500.0, 254.0, 40.0, 40.0)
    ensures AxisMove(Box(500.0, 254.0, 40.0, 40.0), [Box(500.0, 150.0, 100.0, 100.0)], Vertical, -3.0)
         == Box(500.0, 251.0, 40.0, 40.0)
  {
    SingleObstacleOvershoot(Box(500.0, 251.0, 40.0, 40.0), Box(500.0, 150.0, 100.0, 100.0), Vertical, -3.0);
    SettleClear(Box(500.0, 251.0, 40.0, 40.0), [Box(500.0, 150.0, 100.0, 100.0)], Vertical, -3.0);
  }

  /** verticalCollision: the vertical axis moved by (down - up) * speed. */
  function VerticalStep(p: Box, colliders: seq<Box>, inputs: Inputs, speed: real): Box
  {
    AxisMove(p, colliders, Vertical, VerticalVelocity(inputs, speed))
  }

  /** horizontalCollision: the horizontal axis moved by (right - left) * speed. */
  function HorizontalStep(p: Box, colliders: seq<Box>, inputs: Inputs, speed: real): Box
  {
    AxisMove(p, colliders, Horizontal, HorizontalVelocity(inputs, speed))
  }

  /** player.collision: the vertical axis first, then the horizontal one. */
  function CollisionStep(p: Box, colliders: seq<Box>, inputs: Inputs, speed: real): Box
  {
    HorizontalStep(VerticalStep(p, colliders, inputs, speed), colliders, inputs, speed)
  }

  /** With no obstacle in the way on either step, the player moves by the
      full input times speed on both axes. */
  lemma CollisionStepFree(p: Box, colliders: seq<Box>, inputs: Inputs, speed: real)
    requires forall c :: c in colliders ==> !Overlaps(Shift(p, Vertical, VerticalVelocity(inputs, speed)), c)
    requires forall c :: c in colliders ==>
      !Overlaps(Shift(Shift(p, Vertical, VerticalVelocity(inputs, speed)), Horizontal, HorizontalVelocity(inputs, speed)), c)
    ensures CollisionStep(p, colliders, inputs, speed)
         == Box(p.x + HorizontalVelocity(inputs, speed), p.y + VerticalVelocity(inputs, speed), p.w, p.h)
  {
    var dy, dx := VerticalVelocity(inputs, speed), HorizontalVelocity(inputs, speed);
    AxisMoveFacts(p, colliders, Vertical, dy);
    AxisMoveFacts(Shift(p, Vertical, dy), colliders, Horizontal, dx);
  }

  /** scrollX += (player.x - scrollX) / 20 - viewportWidth / 40 */
  function ScrollX(scrollX: real, x: real, viewportWidth: real): real
  {
    scrollX + (x - scrollX) / 20.0 - viewportWidth / 40.0
  }

  /** scrollY += (player.y - scrollY) / 20 - viewportHeight / 42 */
  function ScrollY(scrollY: real, y: real, viewportHeight: real): real
  {
    scrollY + (y - scrollY) / 20.0 - viewportHeight / 42.0
  }

  /** The camera eases towards a fixed point: x minus half the viewport
      width, and y minus 10/21 of the viewport height; each frame leaves
      19/20 of the remaining gap. */
  lemma ScrollEases(scrollX: real, scrollY: real, x: real, y: real, width: real, height: real)
    ensures ScrollX(scrollX, x, width) - (x - width / 2.0) == 0.95 * (scrollX - (x - width / 2.0))
    ensures ScrollY(scrollY, y, height) - (y - 10.0 * height / 21.0) == 0.95 * (scrollY - (y - 10.0 * height / 21.0))
  {
  }
}

=== FILE: registry.dfy ===
/** The entity registries (`objects`, `trees`) as ordered sequences: the
    identity search of getObjectId/getTreeId, JavaScript's `splice(start, 1)`
    and the forward scan of deleteSelf/deleteSelfTree that splices while it
    iterates. Generic in the element type; the elements are compared by
    identity. */
module Registry {

  datatype Option<T> = None | Some(value: T)

  /** The index a `splice` call starts at: `undefined` converts to 0. */
  function StartIndex(start: Option<nat>): nat
  {
    match start
    case None => 0
    case Some(k) => k
  }

  /** The first index at which x occurs in s, or None (JavaScript's
      `undefined`) when it does not occur. */
  function FirstIndex<T(==)>(s: seq<T>, x: T): (r: Option<nat>)
    ensures r.None? <==> x !in s
    ensures r.Some? ==> r.value < |s| && s[r.value] == x && x !in s[..r.value]
  {
    if s == [] then None
    else if s[0] == x then Some(0)
    else
      match FirstIndex(s[1..], x)
      case None => None
      case Some(i) =>
        assert s[1..][..i] == s[1..i + 1];
        assert s[..i + 1] == [s[0]] + s[1..i + 1];
        Some(i + 1)
  }

  /** Two results that both meet the first-index description are equal. */
  lemma FirstIndexUnique<T>(s: seq<T>, x: T, r: Option<nat>)
    requires r.None? <==> x !in s
    requires r.Some? ==> r.value < |s| && s[r.value] == x && x !in s[..r.value]
    ensures r == FirstIndex(s, x)
  {
    var f := FirstIndex(s, x);
    if r.Some? && f.Some? {
      assert forall j :: 0 <= j < r.value ==> s[..r.value][j] == s[j];
      assert forall j :: 0 <= j < f.value ==> s[..f.value][j] == s[j];
    }
  }

  /** The loop of getObjectId and getTreeId: scan forward and return the
      first index holding x; fall off the end (undefined) when there is none. */
  method IndexOf<T(==)>(s: seq<T>, x: T) returns (r: Option<nat>)
    ensures r.None? <==> x !in s
    ensures r.Some? ==> r.value < |s| && s[r.value] == x && x !in s[..r.value]
    ensures r == FirstIndex(s, x)
  {
    var i := 0;
    while i < |s|
      invariant 0 <= i <= |s|
      invariant x !in s[..i]
    {
      if s[i] == x {
        r := Some(i);
        FirstIndexUnique(s, x, r);
        return;
      }
      assert s[..i + 1] == s[..i] + [s[i]];
      i := i + 1;
    }
    assert s[..i] == s;
    r := None;
    FirstIndexUnique(s, x, r);
  }

  /** `s.splice(start, 1)` for a start that is a valid index or undefined:
      one element is removed at the start index when that index is inside
      the sequence, and the others keep their order. */
  function SpliceOne<T>(s: seq<T>, start: Option<nat>): (r: seq<T>)
    ensures var k := StartIndex(start);
      if k < |s| then
        |r| == |s| - 1 && multiset(r) == multiset(s) - multiset{s[k]} &&
        (forall j {:trigger r[j]} :: 0 <= j < k ==> r[j] == s[j]) &&
        (forall j {:trigger r[j]} :: k <= j < |r| ==> r[j] == s[j + 1])
      else r == s
  {
    var k := StartIndex(start);
    if k < |s| then
      assert s == s[..k] + [s[k]] + s[k + 1..];
      assert multiset(s) == multiset(s[..k]) + multiset{s[k]} + multiset(s[k + 1..]);
      s[..k] + s[k + 1..]
    else s
  }

  /** The forward scan of deleteSelf (and deleteSelfTree) from index i:
      whenever the element at i is a blocker, the slot that the identity
      search finds for self is spliced out (index 0 once self is gone), and
      the scan goes on at i + 1 over the shortened sequence. */
  function DeleteScan<T(==)>(s: seq<T>, self: T, blockers: set<T>, i: nat): (r: seq<T>)
    ensures multiset(r) <= multiset(s) && |r| <= |s|
    decreases |s| - i
  {
    if i >= |s| then s
    else if s[i] in blockers then DeleteScan(SpliceOne(s, FirstIndex(s, self)), self, blockers, i + 1)
    else DeleteScan(s, self, blockers, i + 1)
  }

  /** One iteration of the scan keeps the rest of the scan's result and
      only ever removes elements. */
  lemma DeleteScanStep<T>(s: seq<T>, s0: seq<T>, self: T, blockers: set<T>, i: nat)
    requires i < |s| && multiset(s) <= multiset(s0)
    requires DeleteScan(s, self, blockers, i) == DeleteScan(s0, self, blockers, 0)
    ensures s[i] in s0
    ensures var t := if s[i] in blockers then SpliceOne(s, FirstIndex(s, self)) else s;
      multiset(t) <= multiset(s0) && DeleteScan(t, self, blockers, i + 1) == DeleteScan(s0, self, blockers, 0)
  {
    assert s[i] in multiset(s0);
  }

  /** With no blocker at or after i the scan changes nothing. */
  lemma {:induction false} DeleteScanUnblocked<T>(s: seq<T>, self: T, blockers: set<T>, i: nat)
    requires forall j :: i <= j < |s| ==> s[j] !in blockers
    ensures DeleteScan(s, self, blockers, i) == s
    decreases |s| - i
  {
    if i < |s| {
      DeleteScanUnblocked(s, self, blockers, i + 1);
    }
  }

  /** With exactly one blocker at or after i, the scan
      removes exactly the slot that the identity search returns, or the
      first element when self is absent. */
  lemma {:induction false} DeleteScanSingleBlocker<T>(s: seq<T>, self: T, blockers: set<T>, i: nat, k: nat)
    requires i <= k < |s| && s[k] in blockers
    requires forall j :: i <= j < |s| && j != k ==> s[j] !in blockers
    ensures DeleteScan(s, self, blockers, i) == SpliceOne(s, FirstIndex(s, self))
    decreases |s| - i
  {
    if i < k {
      assert DeleteScan(s, self, blockers, i) == DeleteScan(s, self, blockers, i + 1);
      DeleteScanSingleBlocker(s, self, blockers, i + 1, k);
    } else {
      DeleteScanLastBlocker(s, self, blockers, k);
    }
  }

  /** At the last blocker the scan splices once and then runs out. */
  lemma {:induction false} DeleteScanLastBlocker<T>(s: seq<T>, self: T, blockers: set<T>, k: nat)
    requires k < |s| && s[k] in blockers
    requires forall j :: k < j < |s| ==> s[j] !in blockers
    ensures DeleteScan(s, self, blockers, k) == SpliceOne(s, FirstIndex(s, self))
  {
    var p := StartIndex(FirstIndex(s, self));
    var t := SpliceOne(s, FirstIndex(s, self));
    assert DeleteScan(s, self, blockers, k) == DeleteScan(t, self, blockers, k + 1);
    assert p < |s|;
    forall j | k + 1 <= j < |t|
      ensures t[j] !in blockers
    {
      if j < p {
        assert t[j] == s[j];
      } else {
        assert t[j] == s[j + 1];
      }
    }
    DeleteScanUnblocked(t, self, blockers, k + 1);
  }

  /** Once self is absent it stays absent. */
  lemma DeleteScanKeepsOut<T>(s: seq<T>, self: T, blockers: set<T>, i: nat)
    requires self !in s
    ensures self !in DeleteScan(s, self, blockers, i)
  {
    var r := DeleteScan(s, self, blockers, i);
    assert multiset(r)[self] <= multiset(s)[self] == 0;
  }

  /** When self occurs once and some element at or after i is a blocker,
      self is gone after the scan. */
  lemma {:induction false} DeleteScanRemovesSelf<T>(s: seq<T>, self: T, blockers: set<T>, i: nat, k: nat)
    requires multiset(s)[self] == 1
    requires i <= k < |s| && s[k] in blockers
    ensures self !in DeleteScan(s, self, blockers, i)
    decreases |s| - i
  {
    if s[i] in blockers {
      var f := FirstIndex(s, self);
      assert self in s by {
        assert self in multiset(s);
      }
      var t := SpliceOne(s, f);
      assert DeleteScan(s, self, blockers, i) == DeleteScan(t, self, blockers, i + 1);
      assert multiset(t) == multiset(s) - multiset{self};
      assert self !in t by {
        assert multiset(t)[self] == 0;
      }
      DeleteScanKeepsOut(t, self, blockers, i + 1);
    } else {
      DeleteScanRemovesSelf(s, self, blockers, i + 1, k);
    }
  }

  /** The hazard of splicing while scanning: with self last and two
      blockers x and y behind an unrelated element a, the first hit removes
      self and the second hit, finding no index for self, removes a, which is
      neither self nor a blocker. */
  lemma DeleteScanSecondHitRemovesHead<T>(a: T, x: T, y: T, self: T)
    requires a != x && a != y && a != self && x != self && y != self
    ensures DeleteScan([a, x, y, self], self, {x, y}, 0) == [x, y]
  {
    HazardFirstHit(a, x, y, self);
    HazardSecondHit(a, x, y, self);
  }

  /** The successor of a head removal is skipped: with self last and three
      blockers x, y and z behind an unrelated element a, the hit at x removes
      self and the hit at y removes the head a. Everything then shifts one
      place down, so the scan steps past z, which is a blocker but splices
      nothing. */
  lemma DeleteScanSkipsAfterHeadRemoval<T>(a: T, x: T, y: T, z: T, self: T)
    requires a != x && a != y && a != z && a != self
    requires x != self && y != self && z != self
    ensures DeleteScan([a, x, y, z, self], self, {x, y, z}, 0) == [x, y, z]
  {
    SkipFirstHit(a, x, y, z, self);
    SkipSecondHit(a, x, y, z, self);
  }

  /** The hit at x splices out self, which the identity search finds last. */
  lemma SkipFirstHit<T>(a: T, x: T, y: T, z: T, self: T)
    requires a != x && a != y && a != z && a != self
    requires x != self && y != self && z != self
    ensures DeleteScan([a, x, y, z, self], self, {x, y, z}, 0) == DeleteScan([a, x, y, z], self, {x, y, z}, 2)
  {
    var s := [a, x, y, z, self];
    assert s[4] == self && self !in s[..4];
    FirstIndexUnique(s, self, Some(4));
    assert SpliceOne(s, Some(4)) == [a, x, y, z];
    assert DeleteScan(s, self, {x, y, z}, 0) == DeleteScan(s, self, {x, y, z}, 1);
  }

  /** The hit at y finds no index for self and splices out the head; the
      scan index then lies past the shortened end, so z is never tested. */
  lemma SkipSecondHit<T>(a: T, x: T, y: T, z: T, self: T)
    requires a != x && a != y && a != z && a != self
    requires x != self && y != self && z != self
    ensures DeleteScan([a, x, y, z], self, {x, y, z}, 2) == [x, y, z]
  {
    assert self !in [a, x, y, z];
    assert SpliceOne([a, x, y, z], None) == [x, y, z];
  }

  /** The first hit, at x, splices out self, which the identity search finds last. */
  lemma HazardFirstHit<T>(a: T, x: T, y: T, self: T)
    requires a != x && a != y && a != self && x != self && y != self
    ensures DeleteScan([a, x, y, self], self, {x, y}, 0) == DeleteScan([a, x, y], self, {x, y}, 2)
  {
    var s := [a, x, y, self];
    assert s[3] == self && self !in s[..3];
    FirstIndexUnique(s, self, Some(3));
    assert SpliceOne(s, Some(3)) == [a, x, y];
    assert DeleteScan(s, self, {x, y}, 0) == DeleteScan(s, self, {x, y}, 1);
  }

  /** The second hit, at y, finds no index for self and splices out the head. */
  lemma HazardSecondHit<T>(a: T, x: T, y: T, self: T)
    requires a != x && a != y && a != self && x != self && y != self
    ensures DeleteScan([a, x, y], self, {x, y}, 2) == [x, y]
  {
    assert self !in [a, x, y];
    assert SpliceOne([a, x, y], None) == [x, y];
  }
}
